=== FILE: README.md ===
# system_audit.py in Dafny

A model of the single-script system audit tool `system_audit.py`. Each run of the script probes
the machine (system identity, memory, disks, logged-in users, installed software) and appends
one numbered report to a JSON history file. It also updates a run log holding the run count and
the time of the last run.

The model covers the parts of the script that are pure logic:

- **Python string primitives** (`pystr.dfy`, `pyint.dfy`). These are `str.split()` with no
  argument (Unicode whitespace runs, empty tokens dropped), `split('\n')`, `splitlines()`,
  `strip()`, `in`, `" ".join(...)`, `isdigit()` and `int()`. Each is written out as Python
  defines it, so the parsers built on them behave as the script does.
- **The parsers** (`parsers.dfy`). Each takes a command's decoded output and returns the list or
  value the script builds from it:
  - `who` output becomes the users list.
  - `df -h /` and `wmic logicaldisk` output become the disks list.
  - The three software listings become the software list: `wmic product` on Windows,
    `dpkg --get-selections` or `rpm -qa` on Linux, `system_profiler` on macOS.
  - `wmic memorychip`, `/proc/meminfo` and `sysctl hw.memsize` output become the memory amount.
- **The probes** (`probes.dfy`). The machine is a `Host` value that records what each foreign
  call returns or raises. The probes choose the command for the operating system. A failing
  command becomes one error entry in the probe's result. `Collect` assembles the report's
  inventory.
- **The run** (`history.dfy`). The two JSON files form an immutable `Store`. `Run` is the
  script's main block: read the run log, number the report, gather the inventory, read the
  reports, write the reports, write the run log. The lemmas cover runs in sequence.

`seqs.dfy` holds the list combinators (filter-map, count, sum) and `wrappers.dfy` holds
`Option` and `Call` (a foreign call that returned or raised).

Command output is modelled as the commands print it: columns padded to their width with any
amount of whitespace, lines ended by `"\n"`, `"\r\n"` or a lone `"\r"` (the `"\r\r\n"` that
`wmic` ends its lines with is a line ended by `"\r"` followed by an empty line), and trailing
padding and blank lines. A row is a `Parsers.Row`: leading padding, then `PyStr.Cell`s, each a
field with its own padding, then the line end.

On macOS `df -h /` prints nine columns, so the sixth field the script takes as the mount point
is the inode count there. The model reproduces this: the sixth field is used on every system.

The model keeps three consequences of the code:

- A corrupt reports file or run log is not treated as empty. `json.load` raises
  (system_audit.py:156 and :169) and the run stops before it writes anything.
- The identity probe has no `try`, so a failing host-name lookup (system_audit.py:16) aborts
  the whole run.
- The memory probe catches its own exceptions and returns an `"Error: ..."` string
  (system_audit.py:46-47) rather than raising.

## Model

| member | source | states |
|---|---|---|
| PyStr.Split | system_audit.py:96 | `split()` with no argument returns only non-empty, whitespace-free fields, and none exactly when the text is all whitespace |
| PyStr.SplitJoin | system_audit.py:96 | `split()` with no argument recovers whitespace-free fields joined by any non-empty whitespace |
| PyStr.SplitAppend | system_audit.py:29 | `split()` of two texts joined by whitespace is the concatenation of their tokens |
| PyStr.SplitCells | system_audit.py:60 | `split()` recovers the fields of a column-aligned line, whatever the leading, separating and trailing padding |
| PyStr.SplitOn | system_audit.py:119 | `split('\n')` returns at least one piece, no piece contains the separator, and joining the pieces with it gives back the text |
| PyStr.SplitOnJoin | system_audit.py:119 | `split('\n')` is the inverse of `'\n'.join` for pieces without a newline, empty pieces included |
| PyStr.SplitLines | system_audit.py:94 | no line `splitlines()` returns contains a line break, and there are never more lines than characters |
| PyStr.SplitLinesCons | system_audit.py:58 | a first line ended by `"\n"`, `"\r\n"` or a lone `"\r"` comes off whole, and the rest of the text is split on its own |
| PyStr.SplitLinesPrint | system_audit.py:94 | `splitlines()` gives back exactly the printed lines, whatever mix of line ends they use, with no trailing empty line |
| PyStr.Strip | system_audit.py:121 | `strip()` returns a string with no whitespace at either end; the result is empty exactly when the input is all whitespace |
| PyStr.StripTrims | system_audit.py:121 | `strip()` returns the middle of its input, with only whitespace before and after it |
| PyStr.StripPadded | system_audit.py:121 | `strip()` removes exactly the whitespace padding around an already stripped string |
| PyStr.StripStripped | system_audit.py:133 | `strip()` leaves a stripped string unchanged, so it is idempotent |
| PyStr.TrimsShiftsWord | system_audit.py:140-141 | cutting whitespace off both ends of a line keeps every occurrence of a whitespace-free word, shifted by the cut |
| PyStr.StripKeepsWord | system_audit.py:140-141 | a whitespace-free word contained in a line is still contained in the stripped line |
| PyStr.Contains | system_audit.py:37 | `sub in s` holds exactly when `sub` occurs at some position of `s` |
| PyInt.ParseLiteral | system_audit.py:38 | a stripped literal `int()` accepts ends in a digit, has a sign only in front and otherwise only digits and underscores that follow a digit; a digit string is its decimal value; a negative result has a leading minus |
| PyInt.ParseInt | system_audit.py:38 | `int()` of an ASCII digit string is its decimal value; `int()` never accepts blank text, and accepts other text only when its stripped form is shaped like a literal |
| PyInt.ParseIntRejects | system_audit.py:64 | `int()` raises `ValueError` on any text holding a character other than an ASCII digit, a sign, an underscore or whitespace |
| PyInt.ParseNegativeDecimal | system_audit.py:38 | `int()` accepts a leading minus sign: `int("-" + str(n)) == -n` |
| PyInt.DecimalOfDigits | system_audit.py:30 | a digit string without leading zeros is the decimal rendering of its value |
| Parsers.TableLines | system_audit.py:94 | `splitlines()` of a printed table gives one line per row, in order, each the row's text |
| Parsers.TableAfterHeader | system_audit.py:58 | `[1:]` after `splitlines()` skips exactly the header row; every other line splits into its row's fields |
| Parsers.WhoUsers | system_audit.py:90-104 | the users list has at most one entry per line of `who` output, and every entry is a user |
| Parsers.WhoLineFields | system_audit.py:96-100 | however each column is padded, the user is field 1; the login time is fields 3 and 4 joined by one space, or field 3 alone; lines with fewer than 3 fields give nothing |
| Parsers.WhoOfTable | system_audit.py:93-104 | `who` output, padded and line-ended in any way, yields one user per row with at least 3 fields, in row order, mapped field by field |
| Parsers.WhoCount | system_audit.py:94-97 | the number of users equals the number of lines with at least 3 fields |
| Parsers.DfDisks | system_audit.py:71-82 | at most one entry per line, fewer entries than lines when there are any; every entry is a disk whose usage is the verbatim percent field |
| Parsers.DfSkipsHeader | system_audit.py:73 | whatever the first line holds, even a line shaped like a volume, the list depends only on the lines after it |
| Parsers.DfLineFields | system_audit.py:74-81 | however each column is padded, a line with at least 6 fields yields device = field 1, usage = field 5, mount point = field 6; extra fields are ignored |
| Parsers.DfOfTable | system_audit.py:72-82 | whatever its header, `df` output yields one entry per row with at least 6 fields, in row order |
| Parsers.WmicLine | system_audit.py:60-69 | a line gives a disk only when it has exactly three fields and the third is a positive digit string; the disk's device and mount point are the first field and its size is the third field's value; its free count is `int()` of the second field; a selected line whose second field `int()` accepts always gives a disk |
| Parsers.WmicError | system_audit.py:64 | the error entry records the second field, the free count that `int()` rejects |
| Parsers.WmicBadFreeRaises | system_audit.py:60-85 | a selected line whose free field holds a letter, a decimal point or any other character `int()` never accepts raises, gives no disk, and its error entry records that field |
| Parsers.WmicIgnoresLine | system_audit.py:61-63 | a line without exactly three fields, or whose third field is not a positive digit string, neither raises nor gives an entry |
| Parsers.WmicDiskLines | system_audit.py:58-69 | at most one entry per line; every disk has its device as mount point and a positive size; only the last entry can be an error |
| Parsers.WmicErrorIffRaises | system_audit.py:58-87 | the list ends in an error entry exactly when some line raises; otherwise every entry is a disk |
| Parsers.WmicKeepsEarlierEntries | system_audit.py:59-85 | when line k is the first whose free field `int()` rejects, the entries of earlier lines are kept in order and exactly one error entry follows |
| Parsers.WmicWithoutFailure | system_audit.py:59-69 | with no raising line, the result is the plain filter over the lines |
| Parsers.WmicDisks | system_audit.py:55-69 | at most one entry per line, fewer entries than lines when there are any; disks have their device as mount point and a positive size; only the last entry can be an error |
| Parsers.WmicSkipsHeader | system_audit.py:58 | whatever the first line holds, the list depends only on the lines after it |
| Parsers.WmicVolumeLine | system_audit.py:60-69 | a volume printed as a line, however padded, never raises and gives its entry: nothing for size 0, else device, free and size read back exactly |
| Parsers.WmicOfTable | system_audit.py:55-69 | a `wmic logicaldisk` listing whose other rows the filter does not select (blank rows from `"\r\r\n"`, drives without media), yields exactly the volumes of positive size, in order, with device as mount point and the free and size counts |
| Parsers.WindowsMemoryBytes | system_audit.py:29-30 | the Windows total is never negative, and is 0 when no token is all digits |
| Parsers.WindowsMemoryAdds | system_audit.py:29-30 | the Windows total is a sum over tokens: the totals of two outputs joined by whitespace add up |
| Parsers.WindowsMemoryOfChips | system_audit.py:27-30 | `wmic memorychip` output (the "Capacity" header, then one count per chip, any padding and line ends between them) gives the sum of the capacities |
| Parsers.FirstContaining | system_audit.py:36-37 | the loop stops at the first line containing the key; no earlier line contains it |
| Parsers.MeminfoTotal | system_audit.py:36-39 | nothing is reported exactly when no line contains "MemTotal"; the amount is in KiB; an invalid-literal error records text `int()` rejects |
| Parsers.MeminfoOfLines | system_audit.py:34-39 | `/proc/meminfo` whose first "MemTotal" line is `MemTotal: <kb> kB`, however padded, gives `kb` KiB, whatever the other lines say |
| Parsers.SysctlBytes | system_audit.py:42-43 | output without a ':' raises `IndexError`; the amount is in bytes; an invalid-literal error records text `int()` rejects |
| Parsers.SysctlOfOutput | system_audit.py:42-43 | `sysctl` output `<key>: <n>` gives `n` bytes, whatever whitespace surrounds the number |
| Parsers.WindowsSoftware | system_audit.py:117-123 | fewer entries than pieces, since the first piece is skipped; no name is empty or padded with whitespace |
| Parsers.WindowsSoftwareOfLines | system_audit.py:119-123 | below the header, every line is stripped and kept unless blank, in order |
| Parsers.WindowsDropsBlankLine | system_audit.py:121-123 | a line gives no Windows entry exactly when it is whitespace only |
| Parsers.WindowsNamePadded | system_audit.py:121-123 | a name line gives the name, however it is padded |
| Parsers.WindowsSoftwareOfListing | system_audit.py:117-123 | a `wmic product` listing (header, each name padded to its own width, blank lines) gives exactly the names, in order |
| Parsers.LinuxSoftware | system_audit.py:130-133 | one entry per non-empty piece, header included, each stripped |
| Parsers.LinuxSoftwareOfLines | system_audit.py:130-133 | every piece is filtered on its own: a non-empty piece gives its stripped text, an empty one nothing |
| Parsers.LinuxSoftwareOfListing | system_audit.py:125-133 | newline-terminated output gives each line stripped, in order: padded names come back bare, whitespace-only lines as empty names |
| Parsers.LinuxKeepsBlankLine | system_audit.py:131-133 | the emptiness test comes before `strip()`, so every whitespace-only line gives an empty name |
| Parsers.MacName | system_audit.py:140-141 | a macOS line gives an entry exactly when it mentions "Location:"; the entry is the line with only surrounding whitespace cut, and still mentions it |
| Parsers.MacSoftware | system_audit.py:136-141 | one entry per line containing "Location:"; each entry is stripped and still contains "Location:" |
| Parsers.LocatedLine | system_audit.py:140-141 | an indented `Location: <path>` line, however padded, gives `Location: <path>` |
| Parsers.MacSoftwareOfListing | system_audit.py:136-141 | `system_profiler` output mixing location lines with other lines gives the location lines, stripped, in order |
| Probes.TotalMemory | system_audit.py:22-47 | an unknown system gives nothing; a failing command gives the error; Linux reports KiB and the others bytes |
| Probes.DiskUsage | system_audit.py:50-87 | an unknown system gives the empty list; a failing command gives exactly one error entry; only the last entry can be an error |
| Probes.LoggedInUsers | system_audit.py:90-108 | a failing `who` gives exactly one error entry; otherwise every entry is a user |
| Probes.InstalledSoftware | system_audit.py:111-148 | an unknown system gives the empty list; a failing command gives exactly one "Error fetching software list: " message |
| Probes.SystemInformation | system_audit.py:10-19 | the identity probe raises exactly when the host-name lookup raises; the operating system field is system and release joined by a space |
| Probes.Collect | system_audit.py:184-191 | gathering the inventory aborts exactly when the host-name lookup raises; otherwise it holds the four probes' results |
| Probes.ProbesIsolated | system_audit.py:184-190 | each probe reads only its own command: changing any other command's outcome, a failure included, leaves its result unchanged |
| Probes.CommandFailureCaptured | system_audit.py:143-146 | a failing command never aborts the run; its failure is recorded in the probe that ran it |
| Probes.CommandsPerSystem | system_audit.py:26-137 | each system's memory, disk and software commands are distinct; dpkg or rpm is used exactly on Linux |
| History.LoadReports | system_audit.py:153-158 | a missing reports file reads as the empty list; an unreadable one raises |
| History.LoadRunLog | system_audit.py:166-171 | a missing run log reads as a count of 0 and no last run; an unreadable one raises |
| History.NextNumber | system_audit.py:181 | the new number is the stored count plus 1, and 1 when the count key is missing |
| History.SaveReport | system_audit.py:180-195 | the reports file gains exactly the new report after the earlier ones; the run log is not yet touched |
| History.Run | system_audit.py:180-199 | an aborted run changes nothing; a run saves exactly when both files load and the lookup succeeds; then the reports grow by one and the run log holds the new number and time |
| History.RunKeepsConsistent | system_audit.py:180-199 | a run keeps the run log's count equal to the number of reports, numbered 1, 2, ... |
| History.RunAllKeepsConsistent | system_audit.py:180-199 | any sequence of runs, aborted ones included, keeps the files consistent |
| History.RunsFromEmpty | system_audit.py:180-199 | from no files, N runs give reports numbered 1..N in run order with their times, and a run count of N |
| History.UnreadableRunLogBlocks | system_audit.py:166-169 | a run log `json.load` rejects stops every later run before it writes anything |
| History.InterruptedRunRepeatsNumber | system_audit.py:193-199 | reports are saved before the run log, so a run stopped between the writes makes the next run reuse the same number |
| History.AuditRun | system_audit.py:179-199 | the main block saves exactly when both files load and the host-name lookup succeeds; the last report is the new one |

## Left out

- Foreign calls are inputs, not modelled. This covers `subprocess.check_output`, reading
  `/proc/meminfo`, `socket`, `platform`, `getmac` and `os.path.exists`. Each is a field of
  `Probes.Host`. Only two fields can hold a raised exception's message: `address`, the outcome
  of `socket.gethostbyname` (system_audit.py:16), and `output`, the outcome of each command or
  of reading `/proc/meminfo`. The other fields are plain values.
- Probes.SystemInformation: `socket.gethostname()` (system_audit.py:12, :16), `platform.system()`,
  `platform.release()`, `platform.machine()`, `platform.processor()` (:13-15) and
  `get_mac_address()` (:17) are taken never to raise. In the script an exception from any of
  them is not caught and aborts the run; the model has no such outcome for them.
- Byte decoding is not modelled. The outputs are already-decoded strings. A strict `.decode()`
  that raises is folded into the command's `Raised` outcome.
- File I/O and JSON are not modelled. Each file is `Absent`, `Holds` a well-formed value, or
  `Unreadable`. `Unreadable` stands for every case where the script raises on the loaded file
  before it writes anything: `json.load` raises (system_audit.py:156, :169); the run log is not
  an object, or its `run_count` is a value `+ 1` rejects, such as a string or `null`, so line
  181 raises; the reports value is not a list, so `append` raises at line 194. Keys of the run
  log other than `run_count` and `last_run` are not modelled.
- History.LoadRunLog: a `run_count` that is a number but not an integer is not modelled. The
  script accepts `3.0` (the report is numbered `4.0`) and `true` (numbered 2) at line 181; the
  model's count is an integer, so such a run log has no representation.
- History.Run: a corrupt file is not tolerated. The run aborts without writing, as the script
  does.
- Floating point is not modelled. Memory stops at the integer byte or KiB count, before the GiB
  conversion and `round(..., 2)`. Disk usage from `wmic` keeps the integer free and size counts,
  before the `used_percent` formula.
- Parsers.ChipCapacity: `str.isdigit()` is modelled for ASCII digits only, because the model's
  digit values are ASCII. Python also accepts other Unicode digits, and some of them, such as
  the superscript `'²'`, are digits that `int()` rejects. For such a token the script's
  `int(x)` raises `ValueError` (system_audit.py:30) and `get_total_memory` returns
  `"Error: ..."` (:46-47); the model skips the token and returns the sum of the others.
- PyInt.ParseInt: Unicode decimal digits and the 4300-digit conversion limit of `int()` are
  not modelled; the model reads digit strings of any length.
- PyInt.ParseIntRejects: a non-ASCII decimal digit such as `'٣'` counts as rejected in the
  model, while Python's `int()` accepts it.
- Parsers.WmicLine: the float arithmetic of `used_percent` (system_audit.py:64) is not modelled.
  When `int(free) / int(size)` is too large for a float it raises `OverflowError`, and the
  script then appends an error entry; the model gives the disk entry. `int(size)` and
  `int(free)` beyond 4300 digits raise `ValueError` in the script but are read by the model.
  A size field that `str.isdigit()` accepts but `int()` rejects, such as `'²'`, makes the
  script's `int(size)` raise (system_audit.py:63), so it appends an error entry and reads no
  further line (:84-85); the model takes such a field for a non-digit and skips the line.
- Probes.TotalMemory: the GiB conversion (system_audit.py:31, :39, :44) is not modelled. When
  the count divided by `1024 ** 3` (or `1024 ** 2`) is too large for a float, the division
  raises `OverflowError` and the script returns `"Error: ..."`; the model returns the count.
  The same holds for counts beyond the 4300-digit limit of `int()` (lines 30, 38, 43).
- Error messages (`str(e)`) are replaced by a `ProbeError` cause, except the text of a failing
  command.
- `datetime.now().strftime(...)` is an opaque string input to each run.
- Console output (`print`) is not modelled.
- A run interrupted other than between the two writes is not modelled.

=== FILE: history.dfy ===
/** The persistent side of `system_audit.py`: the reports file (a JSON list of reports), the run
    log (a JSON object holding `run_count` and `last_run`), and one run of the script's main
    block, which reads the run log, gathers the inventory, reads the reports, then writes the
    reports and after them the run log. */
module History {
  import opened Wrappers
  import opened Probes

  /** One entry of the reports file. */
  datatype Report = Report(number: int, generatedAt: string, inventory: Inventory)

  /** The run log: `runCount` is `None` when the object has no "run_count" key, `lastRun` is
      `None` for JSON `null`. */
  datatype RunLog = RunLog(runCount: Option<int>, lastRun: Option<string>)

  /** A JSON file on disk: missing, holding a value of the expected shape, or holding something
      `json.load` rejects. */
  datatype File<T> = Absent | Holds(content: T) | Unreadable

  datatype Store = Store(reports: File<seq<Report>>, runLog: File<RunLog>)

  const EmptyStore := Store(Absent, Absent)

  /** `load_reports()`: `None` where `json.load` raises. */
  function LoadReports(f: File<seq<Report>>): (r: Option<seq<Report>>)
    ensures r.None? <==> f.Unreadable?
    ensures f.Absent? ==> r == Some([])
  {
    match f
    case Absent => Some([])
    case Holds(rs) => Some(rs)
    case Unreadable => None
  }

  /** `load_run_log()`: a missing file reads as a count of zero and no last run. */
  function LoadRunLog(f: File<RunLog>): (r: Option<RunLog>)
    ensures r.None? <==> f.Unreadable?
    ensures f.Absent? ==> r == Some(RunLog(Some(0), None))
  {
    match f
    case Absent => Some(RunLog(Some(0), None))
    case Holds(log) => Some(log)
    case Unreadable => None
  }

  /** `run_log.get("run_count", 0) + 1`. */
  function NextNumber(log: RunLog): (n: int)
    ensures log.runCount.None? ==> n == 1
    ensures log.runCount.Some? ==> n - 1 == log.runCount.value
  {
    log.runCount.GetOr(0) + 1
  }

  /** Why a run stops before writing anything. */
  datatype Failure =
    | RunLogUnreadable        // json.load of the run log raised
    | LookupFailed(message: string)  // socket.gethostbyname raised
    | ReportsUnreadable       // json.load of the reports file raised

  datatype Outcome = Saved(number: int) | Aborted(failure: Failure)

  datatype Step = Step(store: Store, outcome: Outcome)

  /** A run that has written the reports file: the files as they then are, the new report's
      number, and the run log as it was read. */
  datatype Progress = Stopped(failure: Failure) | Written(store: Store, number: int, log: RunLog)

  /** The main block up to and including `save_reports`: the run log is read, the inventory
      gathered (`gathered`, raised when the name lookup fails), the reports read back, and the
      new report appended to them. */
  function SaveReport(store: Store, gathered: Call<Inventory>, now: string): (r: Progress)
    ensures r.Stopped? <==>
      LoadRunLog(store.runLog).None? || gathered.Raised? || LoadReports(store.reports).None?
    ensures r.Written? ==>
      && r.store.runLog == store.runLog
      && Some(r.log) == LoadRunLog(store.runLog)
      && r.number == NextNumber(r.log)
      && r.store.reports == Holds(LoadReports(store.reports).value + [Report(r.number, now, gathered.value)])
  {
    match LoadRunLog(store.runLog)
    case None => Stopped(RunLogUnreadable)
    case Some(log) =>
      var n := NextNumber(log);
      match gathered
      case Raised(m) => Stopped(LookupFailed(m))
      case Returned(inv) =>
        match LoadReports(store.reports)
        case None => Stopped(ReportsUnreadable)
        case Some(rs) => Written(store.(reports := Holds(rs + [Report(n, now, inv)])), n, log)
  }

  /** One run of the script, at time `now` (the `strftime` text), with `gathered` the outcome
      of the probes: the reports are saved, then the run log with the new count and time. */
  function Run(store: Store, gathered: Call<Inventory>, now: string): (s: Step)
    ensures s.outcome.Aborted? ==> s.store == store
    ensures s.outcome.Saved? <==>
      LoadRunLog(store.runLog).Some? && gathered.Returned? && LoadReports(store.reports).Some?
    ensures store.runLog.Unreadable? ==> s.outcome == Aborted(RunLogUnreadable)
    ensures !store.runLog.Unreadable? && gathered.Raised? ==> s.outcome == Aborted(LookupFailed(gathered.message))
    ensures s.outcome.Saved? ==>
      && s.outcome.number == NextNumber(LoadRunLog(store.runLog).value)
      && s.store.runLog == Holds(RunLog(Some(s.outcome.number), Some(now)))
      && s.store.reports == Holds(LoadReports(store.reports).value + [Report(s.outcome.number, now, gathered.value)])
  {
    match SaveReport(store, gathered, now)
    case Stopped(f) => Step(store, Aborted(f))
    case Written(saved, n, log) =>
      Step(saved.(runLog := Holds(log.(runCount := Some(n), lastRun := Some(now)))), Saved(n))
  }

  /** The reports are numbered 1, 2, ... in file order. */
  predicate NumberedFromOne(rs: seq<Report>) {
    forall i :: 0 <= i < |rs| ==> rs[i].number == i + 1
  }

  /** The files agree: no file yet, or the run log counts exactly the reports on file, which
      are numbered from one. */
  predicate Consistent(store: Store) {
    || store == EmptyStore
    || (&& store.reports.Holds? && store.runLog.Holds?
        && NumberedFromOne(store.reports.content)
        && store.runLog.content.runCount == Some(|store.reports.content|))
  }

  /** A run keeps the files consistent: whether it aborts or saves. */
  lemma RunKeepsConsistent(store: Store, gathered: Call<Inventory>, now: string)
    requires Consistent(store)
    ensures Consistent(Run(store, gathered, now).store)
  {
    var s := Run(store, gathered, now);
    if s.outcome.Saved? {
      var rs := LoadReports(store.reports).value;
      assert s.outcome.number == |rs| + 1;
      assert s.store.reports.content == rs + [Report(|rs| + 1, now, gathered.value)];
    }
  }

  /** Runs in order, one per host and time. */
  function RunAll(store: Store, runs: seq<Call<Inventory>>, times: seq<string>): (r: Store)
    requires |runs| == |times|
    decreases |runs|
  {
    if |runs| == 0 then store
    else
      var k := |runs| - 1;
      Run(RunAll(store, runs[..k], times[..k]), runs[k], times[k]).store
  }

  /** Starting from consistent files, any sequence of runs, aborted ones included, leaves the
      files consistent. */
  lemma {:induction false} RunAllKeepsConsistent(store: Store, runs: seq<Call<Inventory>>, times: seq<string>)
    requires |runs| == |times| && Consistent(store)
    ensures Consistent(RunAll(store, runs, times))
    decreases |runs|
  {
    if |runs| > 0 {
      var k := |runs| - 1;
      RunAllKeepsConsistent(store, runs[..k], times[..k]);
      RunKeepsConsistent(RunAll(store, runs[..k], times[..k]), runs[k], times[k]);
    }
  }

  /** After `k` runs without a failed lookup, started with no files, the reports file holds
      reports 1..k in run order, each stamped with its run's time and inventory, and the run log
      counts `k` with the last run's time. */
  lemma {:induction false} RunsFromEmpty(runs: seq<Call<Inventory>>, times: seq<string>)
    requires |runs| == |times| && |runs| > 0
    requires forall i :: 0 <= i < |runs| ==> runs[i].Returned?
    ensures var s := RunAll(EmptyStore, runs, times);
      && s.reports.Holds? && |s.reports.content| == |runs|
      && (forall i :: 0 <= i < |runs| ==>
            s.reports.content[i] == Report(i + 1, times[i], runs[i].value))
      && s.runLog == Holds(RunLog(Some(|runs|), Some(times[|runs| - 1])))
    decreases |runs|
  {
    var k := |runs| - 1;
    var before := RunAll(EmptyStore, runs[..k], times[..k]);
    var s := RunAll(EmptyStore, runs, times);
    var added := Report(k + 1, times[k], runs[k].value);
    if k == 0 {
      RunAppends(EmptyStore, [], runs[0], times[0]);
    } else {
      RunsFromEmpty(runs[..k], times[..k]);
      var rs := before.reports.content;
      RunAppends(before, rs, runs[k], times[k]);
      forall i | 0 <= i < k
        ensures s.reports.content[i] == Report(i + 1, times[i], runs[i].value)
      {
        assert s.reports.content[i] == rs[i];
        assert runs[..k][i] == runs[i] && times[..k][i] == times[i];
      }
    }
    assert s.reports.content[k] == added;
  }

  /** A saving run on files that hold `rs` and count them appends report `|rs| + 1`. */
  lemma RunAppends(store: Store, rs: seq<Report>, gathered: Call<Inventory>, now: string)
    requires store == EmptyStore || (store.reports == Holds(rs) && store.runLog.Holds? && store.runLog.content.runCount == Some(|rs|))
    requires store == EmptyStore ==> rs == []
    requires gathered.Returned?
    ensures Run(store, gathered, now).store == Store(Holds(rs + [Report(|rs| + 1, now, gathered.value)]), Holds(RunLog(Some(|rs| + 1), Some(now))))
  {
    if store == EmptyStore {
      assert LoadReports(store.reports) == Some(rs);
    }
  }

  /** A run log `json.load` rejects stops every later run before it writes anything. */
  lemma {:induction false} UnreadableRunLogBlocks(store: Store, runs: seq<Call<Inventory>>, times: seq<string>)
    requires |runs| == |times| && store.runLog.Unreadable?
    ensures RunAll(store, runs, times) == store
    decreases |runs|
  {
    if |runs| > 0 {
      var k := |runs| - 1;
      UnreadableRunLogBlocks(store, runs[..k], times[..k]);
    }
  }

  /** The reports are written before the run log: a run stopped between the two writes leaves
      the count behind, and the next run files a second report under the same number. */
  lemma InterruptedRunRepeatsNumber(store: Store, g1: Call<Inventory>, t1: string, g2: Call<Inventory>, t2: string)
    requires Consistent(store) && g1.Returned? && g2.Returned?
    ensures SaveReport(store, g1, t1).Written?
    ensures var p := SaveReport(store, g1, t1);
      var s := Run(p.store, g2, t2);
      && s.outcome == Saved(p.number)
      && var rs := s.store.reports.content;
      && |rs| >= 2 && rs[|rs| - 2].number == rs[|rs| - 1].number == p.number
  {
  }

  /** The script's main block on host `h`: the probes run between reading the run log and
      reading the reports, and only a failed name lookup among them stops the run. */
  function AuditRun(store: Store, h: Host, now: string): (s: Step)
    ensures s.outcome.Saved? <==>
      !store.runLog.Unreadable? && h.address.Returned? && !store.reports.Unreadable?
    ensures s.outcome.Saved? ==>
      && s.store.reports.Holds?
      && var rs := s.store.reports.content;
      && |rs| > 0 && rs[|rs| - 1] == Report(s.outcome.number, now, Collect(h).value)
  {
    Run(store, Collect(h), now)
  }
}

=== FILE: parsers.dfy ===
/** The text handling inside the audit script's probes: each parser takes the text a command
    printed (already decoded) and returns the list or value the script builds from it. */
module Parsers {
  import opened Wrappers
  import opened Seqs
  import opened PyStr
  import opened PyInt

  /** Why a probe raised. The script stores `str(e)`; the model keeps the cause instead. */
  datatype ProbeError =
    | CommandFailed(message: string)   // the command, the file read or the decoding raised
    | InvalidLiteral(literal: string)  // `int()` raised `ValueError` on this text
    | IndexOutOfRange                  // a field index past the end raised `IndexError`

  /** A volume's usage as the script reports it. */
  datatype Usage =
    | PercentText(text: string)        // df's use-percent column, verbatim
    | FreeOfSize(free: int, size: nat) // wmic's byte counts; the script reports 100 - free / size * 100

  /** One element of the "Disk Usage" list: a volume, or the error entry `{"Error": ...}`. */
  datatype DiskEntry =
    | Disk(device: string, mountPoint: string, usage: Usage)
    | DiskError(error: ProbeError)

  /** One element of the "Logged-in Users" list: a session, or the error entry. */
  datatype UserEntry =
    | User(username: string, loginTime: string)
    | UserError(error: ProbeError)

  datatype MemoryUnit = Bytes | KiB

  /** The integer the memory probe converts to GiB; `NotReported` is the function falling
      through to `None`, `MemoryError` is the `"Error: ..."` string it returns. */
  datatype Memory =
    | NotReported
    | Capacity(amount: int, unit: MemoryUnit)
    | MemoryError(error: ProbeError)

  /** One row of a column-aligned table: leading padding, the padded fields, the line end. */
  datatype Row = Row(lead: string, cells: seq<Cell>, end: string)

  function RowText(r: Row): string {
    r.lead + Cells(r.cells)
  }

  function RowFields(r: Row): seq<string> {
    Fields(r.cells)
  }

  /** A row a command may print: whitespace-free fields, padding of any width but without a
      line break, and one of the line ends. */
  predicate IsRow(r: Row) {
    && AllSpace(r.lead) && NoBreak(r.lead) && Aligned(r.cells)
    && (forall i :: 0 <= i < |r.cells| ==> NoBreak(r.cells[i].gap))
    && IsLineEnd(r.end)
  }

  function Printed(rows: seq<Row>): (ls: seq<PrintedLine>)
    ensures |ls| == |rows|
    ensures forall i :: 0 <= i < |rows| ==> ls[i] == PrintedLine(RowText(rows[i]), rows[i].end)
  {
    if |rows| == 0 then [] else [PrintedLine(RowText(rows[0]), rows[0].end)] + Printed(rows[1..])
  }

  /** A table as a command prints it: each row on its own line. */
  function Table(rows: seq<Row>): string {
    Print(Printed(rows))
  }

  /** Rows that print as one line each. `wmic` ends its lines with `"\r\r\n"`: a row ended by
      `"\r"` followed by an empty row ended by `"\r\n"`. */
  predicate IsTable(rows: seq<Row>) {
    && (forall i :: 0 <= i < |rows| ==> IsRow(rows[i]))
    && (forall i :: 0 <= i < |rows| - 1 ==>
          rows[i].end == "\r" ==> RowText(rows[i + 1]) != [] || rows[i + 1].end != "\n")
  }

  /** A printed row splits back into its fields, and stays on one line. */
  lemma RowRoundTrip(r: Row)
    requires IsRow(r)
    ensures Split(RowText(r)) == RowFields(r)
    ensures NoBreak(RowText(r))
  {
    SplitCells(r.lead, r.cells);
    CellsNoBreak(r.cells);
    var c := Cells(r.cells);
    assert forall i :: |r.lead| <= i < |r.lead| + |c| ==> RowText(r)[i] == c[i - |r.lead|];
  }

  /** `splitlines()` of a printed table gives back its rows, one line each. */
  lemma TableLines(rows: seq<Row>)
    requires IsTable(rows)
    ensures var ls := SplitLines(Table(rows));
            |ls| == |rows| && forall i :: 0 <= i < |rows| ==> ls[i] == RowText(rows[i])
  {
    var ps := Printed(rows);
    forall i | 0 <= i < |rows|
      ensures NoBreak(ps[i].text)
    {
      RowRoundTrip(rows[i]);
    }
    SplitLinesPrint(ps);
  }

  /** Skipping the first line of a printed table skips exactly its header row; every other
      line splits into its row's fields. */
  lemma TableAfterHeader(header: Row, rows: seq<Row>)
    requires IsTable([header] + rows)
    ensures var ls := AfterFirst(SplitLines(Table([header] + rows)));
            |ls| == |rows| && forall i :: 0 <= i < |rows| ==> Split(ls[i]) == RowFields(rows[i])
  {
    var all := [header] + rows;
    TableLines(all);
    var ls := AfterFirst(SplitLines(Table(all)));
    forall i | 0 <= i < |rows|
      ensures Split(ls[i]) == RowFields(rows[i])
    {
      assert all[i + 1] == rows[i];
      RowRoundTrip(rows[i]);
    }
  }

  /** Whatever the first line holds, parsing after it depends only on the lines that follow. */
  lemma AfterFirstLine(header: string, e: string, rest: string)
    requires NoBreak(header) && IsLineEnd(e)
    requires e == "\r" && |rest| > 0 ==> rest[0] != '\n'
    ensures AfterFirst(SplitLines(header + e + rest)) == SplitLines(rest)
  {
    SplitLinesCons(header, e, rest);
    AfterFirstCons(header, SplitLines(rest));
  }

  // ---------------------------------------------------------------- who

  /** One line of `who` (user, terminal, login date, login time, ...): lines with fewer than three
      fields give nothing; the login time is fields 3 and 4 joined by a space, or field 3 alone. */
  function WhoLine(line: string): Option<UserEntry> {
    var p := Split(line);
    if |p| >= 3 then Some(User(p[0], if |p| >= 4 then Join(" ", p[2..4]) else p[2]))
    else None
  }

  /** The users list built from `who` output. */
  function WhoUsers(text: string): (r: seq<UserEntry>)
    ensures |r| <= |SplitLines(text)|
    ensures forall i :: 0 <= i < |r| ==> r[i].User?
  {
    var r := FilterMap(SplitLines(text), WhoLine);
    assert forall i :: 0 <= i < |r| ==> r[i].User? by {
      forall i | 0 <= i < |r| ensures r[i].User? {
        FilterMapOrigin(SplitLines(text), WhoLine, i);
      }
    }
    r
  }

  /** Reference mapping from a row's fields to the user entry the script records. */
  function WhoRow(fields: seq<string>): Option<UserEntry> {
    if |fields| < 3 then None
    else if |fields| == 3 then Some(User(fields[0], fields[2]))
    else Some(User(fields[0], fields[2] + " " + fields[3]))
  }

  /** Field mapping: however wide each column's padding, a line's fields map as `WhoRow` says. */
  lemma WhoLineFields(lead: string, cells: seq<Cell>)
    requires AllSpace(lead) && Aligned(cells)
    ensures WhoLine(lead + Cells(cells)) == WhoRow(Fields(cells))
  {
    SplitCells(lead, cells);
    var fields := Fields(cells);
    if |fields| >= 4 {
      assert Join(" ", fields[2..4]) == fields[2] + " " + fields[3];
    }
  }

  /** `who` output printed from rows gives one user per row with at least three fields, in
      row order, mapped as `WhoRow` says. */
  lemma WhoOfTable(rows: seq<Row>)
    requires IsTable(rows)
    ensures WhoUsers(Table(rows)) == FilterMap(Map(rows, RowFields), WhoRow)
  {
    TableLines(rows);
    var ls := SplitLines(Table(rows));
    var fields := Map(rows, RowFields);
    forall i | 0 <= i < |rows|
      ensures WhoLine(ls[i]) == WhoRow(fields[i])
    {
      WhoLineFields(rows[i].lead, rows[i].cells);
    }
    FilterMapPointwise(ls, WhoLine, fields, WhoRow);
  }

  /** One entry per line with at least three fields; shorter lines are dropped. */
  lemma WhoCount(text: string)
    ensures |WhoUsers(text)| == Count(SplitLines(text), (l: string) => |Split(l)| >= 3)
  {
    FilterMapLength(SplitLines(text), WhoLine, (l: string) => |Split(l)| >= 3);
  }

  // ---------------------------------------------------------------- df -h /

  /** One line of `df -h /`: lines with at least six fields give the device (field 1), the
      mount point (field 6) and the use percentage (field 5) verbatim; later fields are ignored. */
  function DfLine(line: string): Option<DiskEntry> {
    var p := Split(line);
    if |p| >= 6 then Some(Disk(p[0], p[5], PercentText(p[4]))) else None
  }

  /** The disks list built from `df` output, skipping its first (header) line. */
  function DfDisks(text: string): (r: seq<DiskEntry>)
    ensures |r| <= |SplitLines(text)|
    ensures |r| > 0 ==> |r| < |SplitLines(text)|
    ensures forall i :: 0 <= i < |r| ==> r[i].Disk? && r[i].usage.PercentText?
  {
    var r := FilterMap(AfterFirst(SplitLines(text)), DfLine);
    assert forall i :: 0 <= i < |r| ==> r[i].Disk? && r[i].usage.PercentText? by {
      forall i | 0 <= i < |r| ensures r[i].Disk? && r[i].usage.PercentText? {
        FilterMapOrigin(AfterFirst(SplitLines(text)), DfLine, i);
      }
    }
    r
  }

  /** The header is skipped whatever it holds, even a line that would parse as a volume: the
      list depends only on the lines after the first. */
  lemma DfSkipsHeader(header: string, e: string, rest: string)
    requires NoBreak(header) && IsLineEnd(e)
    requires e == "\r" && |rest| > 0 ==> rest[0] != '\n'
    ensures DfDisks(header + e + rest) == FilterMap(SplitLines(rest), DfLine)
  {
    AfterFirstLine(header, e, rest);
  }

  /** Reference mapping from a `df` row's fields to the entry the script records. */
  function DfRow(fields: seq<string>): Option<DiskEntry> {
    if |fields| < 6 then None else Some(Disk(fields[0], fields[5], PercentText(fields[4])))
  }

  /** Field mapping: however wide each column's padding, a line's fields map as `DfRow` says. */
  lemma DfLineFields(lead: string, cells: seq<Cell>)
    requires AllSpace(lead) && Aligned(cells)
    ensures DfLine(lead + Cells(cells)) == DfRow(Fields(cells))
  {
    SplitCells(lead, cells);
  }

  /** `df` output printed as a header line and rows: the header never yields an entry, whatever
      it holds; each row with at least six fields yields one entry, in row order. */
  lemma DfOfTable(header: Row, rows: seq<Row>)
    requires IsTable([header] + rows)
    ensures DfDisks(Table([header] + rows)) == FilterMap(Map(rows, RowFields), DfRow)
  {
    TableAfterHeader(header, rows);
    var ls := AfterFirst(SplitLines(Table([header] + rows)));
    var fields := Map(rows, RowFields);
    FilterMapPointwise(ls, DfLine, fields, DfRow);
  }

  // ---------------------------------------------------------------- wmic logicaldisk

  /** A line's fields select a volume: exactly three of them, the size (third) all digits and
      positive. */
  predicate WmicSelected(p: seq<string>) {
    |p| == 3 && IsDigits(p[2]) && DigitsValue(p[2]) > 0
  }

  /** The line on which `int(free)` raises: a selected line whose free field is no integer. */
  predicate WmicRaises(line: string) {
    var p := Split(line);
    WmicSelected(p) && ParseInt(p[1]).None?
  }

  /** Some line of `lines` raises. */
  predicate SomeLineRaises(lines: seq<string>) {
    |lines| > 0 && (WmicRaises(lines[0]) || SomeLineRaises(lines[1..]))
  }

  /** The entry a line that does not raise contributes, if any; device and mount point coincide. */
  function WmicLine(line: string): (r: Option<DiskEntry>)
    ensures r.Some? ==> && r.value.Disk? && r.value.device == r.value.mountPoint
                        && r.value.usage.FreeOfSize? && r.value.usage.size > 0
    ensures r.Some? ==> var p := Split(line);
                        && |p| == 3 && IsDigits(p[2]) && r.value.device == p[0]
                        && r.value.usage.size == DigitsValue(p[2])
                        && ParseInt(p[1]).Some? && r.value.usage.free == ParseInt(p[1]).value
    ensures !WmicSelected(Split(line)) ==> r.None?
    ensures r.None? ==> !WmicSelected(Split(line)) || WmicRaises(line)
  {
    var p := Split(line);
    if WmicSelected(p) && ParseInt(p[1]).Some? then
      Some(Disk(p[0], p[0], FreeOfSize(ParseInt(p[1]).value, DigitsValue(p[2]))))
    else None
  }

  /** A selected line whose free field holds a character `int()` never accepts (a letter, a
      decimal point, a thousands comma) raises: the loop stops there with an error entry. */
  lemma WmicBadFreeRaises(line: string, x: int)
    requires WmicSelected(Split(line))
    requires 0 <= x < |Split(line)[1]| && !IsLiteralChar(Split(line)[1][x])
    ensures WmicRaises(line) && WmicLine(line).None?
    ensures WmicError(line) == DiskError(InvalidLiteral(Split(line)[1]))
  {
    ParseIntRejects(Split(line)[1], x);
  }

  /** The entry of the line on which `int(free)` raises. */
  function WmicError(line: string): (e: DiskEntry)
    requires WmicRaises(line)
    ensures e.DiskError? && e.error.InvalidLiteral? && ParseInt(e.error.literal).None?
    ensures e.error.literal == Split(line)[1]
  {
    DiskError(InvalidLiteral(Split(line)[1]))
  }

  /** What the `wmic` loop leaves in the list: disks whose device is their mount point and whose
      size is positive, and at most one error entry, at the end. */
  predicate WmicShaped(r: seq<DiskEntry>) {
    forall i :: 0 <= i < |r| ==>
      if r[i].Disk? then r[i].device == r[i].mountPoint && r[i].usage.FreeOfSize? && r[i].usage.size > 0
      else i == |r| - 1
  }

  lemma ConsWmicShaped(e: DiskEntry, rest: seq<DiskEntry>)
    requires WmicShaped([e]) && e.Disk? && WmicShaped(rest)
    ensures WmicShaped([e] + rest)
  {
    var r := [e] + rest;
    forall i | 0 <= i < |r|
      ensures r[i] == if i == 0 then e else rest[i - 1]
    {
    }
  }

  /** The loop over `wmic logicaldisk` lines inside its `try`: entries in line order until a line
      raises, then the single error entry the `except` clause appends. */
  function WmicDiskLines(lines: seq<string>): (r: seq<DiskEntry>)
    ensures |r| <= |lines|
    ensures WmicShaped(r)
  {
    if |lines| == 0 then []
    else if WmicRaises(lines[0]) then [WmicError(lines[0])]
    else
      var rest := WmicDiskLines(lines[1..]);
      match WmicLine(lines[0])
      case Some(e) => ConsWmicShaped(e, rest); [e] + rest
      case None => rest
  }

  /** The error entry is there exactly when some line raises: without one every entry is a disk,
      with one the list ends in it. */
  lemma {:induction false} WmicErrorIffRaises(lines: seq<string>)
    ensures var r := WmicDiskLines(lines);
      && (!SomeLineRaises(lines) ==> forall i :: 0 <= i < |r| ==> r[i].Disk?)
      && (SomeLineRaises(lines) ==> |r| > 0 && r[|r| - 1].DiskError?)
  {
    if |lines| > 0 && !WmicRaises(lines[0]) {
      var rest := WmicDiskLines(lines[1..]);
      WmicErrorIffRaises(lines[1..]);
      match WmicLine(lines[0])
      case Some(e) =>
        var r := [e] + rest;
        assert forall i :: 0 < i < |r| ==> r[i] == rest[i - 1];
      case None =>
    }
  }

  /** The disks list built from `wmic logicaldisk get deviceid,freespace,size`, header skipped. */
  function WmicDisks(text: string): (r: seq<DiskEntry>)
    ensures |r| <= |SplitLines(text)|
    ensures |r| > 0 ==> |r| < |SplitLines(text)|
    ensures WmicShaped(r)
  {
    WmicDiskLines(AfterFirst(SplitLines(text)))
  }

  /** The header is skipped whatever it holds: the list depends only on the lines after it. */
  lemma WmicSkipsHeader(header: string, e: string, rest: string)
    requires NoBreak(header) && IsLineEnd(e)
    requires e == "\r" && |rest| > 0 ==> rest[0] != '\n'
    ensures WmicDisks(header + e + rest) == WmicDiskLines(SplitLines(rest))
  {
    AfterFirstLine(header, e, rest);
  }

  /** Error isolation: when line `k` is the first to raise, the entries of the earlier lines are
      kept in order and exactly one error entry follows them. */
  lemma {:induction false} WmicKeepsEarlierEntries(lines: seq<string>, k: nat)
    requires k < |lines| && WmicRaises(lines[k])
    requires forall j :: 0 <= j < k ==> !WmicRaises(lines[j])
    ensures WmicDiskLines(lines) == FilterMap(lines[..k], WmicLine) + [WmicError(lines[k])]
  {
    if k > 0 {
      var tail := lines[1..];
      assert tail[k - 1] == lines[k];
      assert forall j :: 0 <= j < k - 1 ==> tail[j] == lines[j + 1];
      WmicKeepsEarlierEntries(tail, k - 1);
      WmicDiskLinesStep(lines);
      var front := lines[..k];
      assert front[0] == lines[0] && front[1..] == tail[..k - 1];
    }
  }

  /** A first line that does not raise contributes its entry, if any, before the others'. */
  lemma WmicDiskLinesStep(lines: seq<string>)
    requires |lines| > 0 && !WmicRaises(lines[0])
    ensures WmicLine(lines[0]).Some? ==> WmicDiskLines(lines) == [WmicLine(lines[0]).value] + WmicDiskLines(lines[1..])
    ensures WmicLine(lines[0]).None? ==> WmicDiskLines(lines) == WmicDiskLines(lines[1..])
  {
  }

  /** Without a raising line the loop is a plain filter over the lines. */
  lemma {:induction false} WmicWithoutFailure(lines: seq<string>)
    requires forall j :: 0 <= j < |lines| ==> !WmicRaises(lines[j])
    ensures WmicDiskLines(lines) == FilterMap(lines, WmicLine)
  {
    if |lines| > 0 {
      assert forall j :: 0 <= j < |lines[1..]| ==> lines[1..][j] == lines[j + 1];
      WmicWithoutFailure(lines[1..]);
    }
  }

  /** A volume as `wmic` lists it: drive letter, free bytes, size in bytes. */
  datatype Volume = Volume(device: string, free: nat, size: nat)

  function VolumeRow(v: Volume): seq<string> {
    [v.device, Decimal(v.free), Decimal(v.size)]
  }

  /** Reference mapping: volumes of size zero are left out, the others reported as they are. */
  function VolumeEntry(v: Volume): Option<DiskEntry> {
    if v.size > 0 then Some(Disk(v.device, v.device, FreeOfSize(v.free, v.size))) else None
  }

  /** A line whose fields are a volume's never raises and reads back as `VolumeEntry` says. */
  lemma WmicVolumeFields(line: string, v: Volume)
    requires Split(line) == VolumeRow(v)
    ensures !WmicRaises(line)
    ensures WmicLine(line) == VolumeEntry(v)
  {
  }

  /** A line whose fields are not selected (not exactly three, or a size that is not a positive
      digit string, such as the single `D:` field of a drive without media) never raises and
      gives nothing. */
  lemma WmicIgnoresLine(line: string)
    requires !WmicSelected(Split(line))
    ensures !WmicRaises(line)
    ensures WmicLine(line).None?
  {
  }

  /** A volume printed as a `wmic` line, however its columns are padded, reads back as
      `VolumeEntry` says. */
  lemma WmicVolumeLine(lead: string, cells: seq<Cell>, v: Volume)
    requires AllSpace(lead) && Aligned(cells) && Fields(cells) == VolumeRow(v)
    ensures !WmicRaises(lead + Cells(cells))
    ensures WmicLine(lead + Cells(cells)) == VolumeEntry(v)
  {
    SplitCells(lead, cells);
    WmicVolumeFields(lead + Cells(cells), v);
  }

  /** Reference mapping for a row of the listing: a volume as `VolumeEntry` says, a blank row
      nothing. */
  function ListedEntry(slot: Option<Volume>): Option<DiskEntry> {
    match slot
    case None => None
    case Some(v) => VolumeEntry(v)
  }

  /** `wmic` output printed from a header and rows, each row a volume or a row the filter does
      not select (a drive without media, the empty rows `"\r\r\n"` line ends produce), gives every volume of positive size, in order, with
      its free and size byte counts read back exactly, and no error entry. */
  lemma WmicOfTable(header: Row, rows: seq<Row>, listed: seq<Option<Volume>>)
    requires IsTable([header] + rows) && |listed| == |rows|
    requires forall i :: 0 <= i < |rows| ==>
      match listed[i]
      case None => !WmicSelected(RowFields(rows[i]))
      case Some(v) => RowFields(rows[i]) == VolumeRow(v)
    ensures WmicDisks(Table([header] + rows)) == FilterMap(listed, ListedEntry)
  {
    TableAfterHeader(header, rows);
    var ls := AfterFirst(SplitLines(Table([header] + rows)));
    forall j | 0 <= j < |ls|
      ensures !WmicRaises(ls[j])
      ensures WmicLine(ls[j]) == ListedEntry(listed[j])
    {
      if listed[j].Some? {
        WmicVolumeFields(ls[j], listed[j].value);
      } else {
        WmicIgnoresLine(ls[j]);
      }
    }
    WmicWithoutFailure(ls);
    FilterMapPointwise(ls, WmicLine, listed, ListedEntry);
  }

  // ---------------------------------------------------------------- memory

  /** A `wmic memorychip get capacity` token counts when `token.isdigit()`, with its value. */
  function ChipCapacity(token: string): Option<nat> {
    if IsDigits(token) then Some(DigitsValue(token)) else None
  }

  /** Installed memory in bytes on Windows: the sum of every all-digit token of the output;
      never negative, and zero when no token is all digits. */
  function WindowsMemoryBytes(text: string): (r: int)
    ensures r >= 0
    ensures (forall i :: 0 <= i < |Split(text)| ==> !IsDigits(Split(text)[i])) ==> r == 0
  {
    var counts := FilterMap(Split(text), ChipCapacity);
    SumNonNegative(counts);
    assert (forall i :: 0 <= i < |Split(text)| ==> !IsDigits(Split(text)[i])) ==> counts == [] by {
      if forall i :: 0 <= i < |Split(text)| ==> !IsDigits(Split(text)[i]) {
        FilterMapDropsAll(Split(text), ChipCapacity);
      }
    }
    Sum(counts)
  }

  /** The sum is over tokens, so the outputs of two groups of chips add up. */
  lemma WindowsMemoryAdds(a: string, sep: string, b: string)
    requires |sep| > 0 && AllSpace(sep)
    ensures WindowsMemoryBytes(a + sep + b) == WindowsMemoryBytes(a) + WindowsMemoryBytes(b)
  {
    SplitAppend(a, sep, b);
    FilterMapAppend(Split(a), Split(b), ChipCapacity);
    SumAppend(FilterMap(Split(a), ChipCapacity), FilterMap(Split(b), ChipCapacity));
  }

  /** Every chip's capacity printed in decimal is counted at its value. */
  lemma ChipCapacities(capacities: seq<nat>)
    ensures FilterMap(Map(capacities, Decimal), ChipCapacity) == capacities
  {
    var counts := Map(capacities, Decimal);
    forall i | 0 <= i < |counts|
      ensures ChipCapacity(counts[i]) == Some(capacities[i])
    {
    }
    FilterMapAll(counts, ChipCapacity, capacities);
  }

  /** `wmic memorychip` output (the "Capacity" header, then one byte count per chip, with any
      padding and line ends between them) gives the sum of the chips' capacities. */
  lemma WindowsMemoryOfChips(lead: string, cells: seq<Cell>, capacities: seq<nat>)
    requires AllSpace(lead) && Aligned(cells)
    requires Fields(cells) == ["Capacity"] + Map(capacities, Decimal)
    ensures WindowsMemoryBytes(lead + Cells(cells)) == Sum(capacities)
  {
    SplitCells(lead, cells);
    var tokens := Fields(cells);
    assert ChipCapacity(tokens[0]) == None by {
      assert !IsDigit("Capacity"[0]);
    }
    assert tokens[1..] == Map(capacities, Decimal);
    ChipCapacities(capacities);
  }

  /** Index of the first line containing `key`, as the `for ... if key in line: return` loop finds it. */
  function FirstContaining(lines: seq<string>, key: string): (r: Option<nat>)
    ensures r.Some? ==> r.value < |lines| && Contains(lines[r.value], key)
    ensures r.Some? ==> forall j :: 0 <= j < r.value ==> !Contains(lines[j], key)
    ensures r.None? ==> forall j :: 0 <= j < |lines| ==> !Contains(lines[j], key)
  {
    if |lines| == 0 then None
    else if Contains(lines[0], key) then Some(0)
    else
      var r := FirstContaining(lines[1..], key);
      assert forall j :: 1 <= j < |lines| ==> lines[j] == lines[1..][j - 1];
      match r
      case None => None
      case Some(i) => Some(i + 1)
  }

  /** Installed memory in KiB on Linux: the second field of the first line of `/proc/meminfo`
      that contains "MemTotal"; with no such line the function falls through to `None`. */
  function MeminfoTotal(text: string): (r: Memory)
    ensures r.NotReported? <==> forall j :: 0 <= j < |SplitLines(text)| ==> !Contains(SplitLines(text)[j], "MemTotal")
    ensures r.Capacity? ==> r.unit == KiB
    ensures r.MemoryError? && r.error.InvalidLiteral? ==> ParseInt(r.error.literal).None?
  {
    var lines := SplitLines(text);
    match FirstContaining(lines, "MemTotal")
    case None => NotReported
    case Some(i) =>
      var p := Split(lines[i]);
      if |p| < 2 then MemoryError(IndexOutOfRange)
      else
        match ParseInt(p[1])
        case None => MemoryError(InvalidLiteral(p[1]))
        case Some(kb) => Capacity(kb, KiB)
  }

  /** The loop stops at the first line containing the key. */
  lemma {:induction false} FirstContainingAt(lines: seq<string>, key: string, k: nat)
    requires k < |lines| && Contains(lines[k], key)
    requires forall j :: 0 <= j < k ==> !Contains(lines[j], key)
    ensures FirstContaining(lines, key) == Some(k)
  {
    if k > 0 {
      assert forall j :: 0 <= j < k - 1 ==> lines[1..][j] == lines[j + 1];
      FirstContainingAt(lines[1..], key, k - 1);
    }
  }

  /** The `MemTotal:` row as the kernel prints it has "MemTotal" in it and splits into its fields. */
  lemma MemTotalRow(row: Row, kb: nat)
    requires IsRow(row) && RowFields(row) == ["MemTotal:", Decimal(kb), "kB"]
    ensures Contains(RowText(row), "MemTotal")
    ensures Split(RowText(row)) == ["MemTotal:", Decimal(kb), "kB"]
  {
    RowRoundTrip(row);
    assert Fields(row.cells)[0] == "MemTotal:";
    StartsWithMemTotal(row.lead, row.cells);
  }

  lemma StartsWithMemTotal(lead: string, cs: seq<Cell>)
    requires |cs| > 0 && cs[0].field == "MemTotal:"
    ensures Contains(lead + Cells(cs), "MemTotal")
  {
    var tail := cs[0].gap + Cells(cs[1..]);
    assert lead + Cells(cs) == lead + "MemTotal" + (":" + tail);
    ContainsInfix(lead, "MemTotal", ":" + tail);
  }

  /** `/proc/meminfo` whose first "MemTotal" line is the row `MemTotal: <kb> kB`, however padded,
      gives `kb` KiB, whatever the lines around it say. */
  lemma MeminfoOfLines(before: seq<PrintedLine>, row: Row, kb: nat, after: seq<PrintedLine>)
    requires IsRow(row) && RowFields(row) == ["MemTotal:", Decimal(kb), "kB"]
    requires WellPrinted(before + [PrintedLine(RowText(row), row.end)] + after)
    requires forall i :: 0 <= i < |before| ==> !Contains(before[i].text, "MemTotal")
    ensures MeminfoTotal(Print(before + [PrintedLine(RowText(row), row.end)] + after)) == Capacity(kb, KiB)
  {
    var ls := before + [PrintedLine(RowText(row), row.end)] + after;
    SplitLinesPrint(ls);
    var lines := SplitLines(Print(ls));
    MemTotalRow(row, kb);
    assert ls[|before|] == PrintedLine(RowText(row), row.end);
    forall j | 0 <= j < |before|
      ensures !Contains(lines[j], "MemTotal")
    {
      assert ls[j] == before[j];
    }
    FirstContainingAt(lines, "MemTotal", |before|);
  }

  /** Installed memory in bytes on macOS: `int(text.split(":")[1].strip())` for the output of
      `sysctl hw.memsize`; output without a ':' raises `IndexError`. */
  function SysctlBytes(text: string): (r: Memory)
    ensures ':' !in text ==> r == MemoryError(IndexOutOfRange)
    ensures r.Capacity? ==> r.unit == Bytes
    ensures r.MemoryError? && r.error.InvalidLiteral? ==> ParseInt(r.error.literal).None?
  {
    var pieces := SplitOn(text, ':');
    if |pieces| < 2 then MemoryError(IndexOutOfRange)
    else
      assert text[|pieces[0]|] == ':' by {
        assert pieces == [pieces[0]] + pieces[1..];
        assert text == pieces[0] + [':'] + Join([':'], pieces[1..]);
      }
      var v := Strip(pieces[1]);
      match ParseInt(v)
      case None => MemoryError(InvalidLiteral(v))
      case Some(b) => Capacity(b, Bytes)
  }

  /** `sysctl` output `<key>: <n>` with any whitespace around the number gives `n` bytes. */
  lemma SysctlOfOutput(key: string, pad: string, n: nat, post: string)
    requires ':' !in key && AllSpace(pad) && AllSpace(post)
    ensures SysctlBytes(key + ":" + pad + Decimal(n) + post) == Capacity(n, Bytes)
  {
    var value := pad + Decimal(n) + post;
    DigitsAreWord(Decimal(n));
    assert ':' !in value by {
      forall i | 0 <= i < |value|
        ensures value[i] != ':'
      {
        if i < |pad| {
          assert IsSpace(value[i]);
        } else if i < |pad| + |Decimal(n)| {
          assert value[i] == Decimal(n)[i - |pad|];
          assert IsDigit(value[i]);
        } else {
          assert IsSpace(post[i - |pad| - |Decimal(n)|]);
        }
      }
    }
    assert Join([':'], [key, value]) == key + ":" + pad + Decimal(n) + post;
    SplitOnJoin(':', [key, value]);
    StripPadded(pad, Decimal(n), post);
  }

  // ---------------------------------------------------------------- installed software

  /** A `wmic product get name` line names a product when it is not blank once stripped. */
  function WindowsName(line: string): Option<string> {
    var name := Strip(line);
    if name != [] then Some(name) else None
  }

  /** The software list on Windows: the output split at '\n', the first ("Name") line skipped,
      every other line stripped and kept unless blank. */
  function WindowsSoftware(text: string): (r: seq<string>)
    ensures |r| < |SplitOn(text, '\n')|
    ensures forall i :: 0 <= i < |r| ==> r[i] != [] && IsStripped(r[i])
  {
    var lines := AfterFirst(SplitOn(text, '\n'));
    var r := FilterMap(lines, WindowsName);
    assert forall i :: 0 <= i < |r| ==> r[i] != [] && IsStripped(r[i]) by {
      forall i | 0 <= i < |r| ensures r[i] != [] && IsStripped(r[i]) {
        FilterMapOrigin(lines, WindowsName, i);
      }
    }
    r
  }

  /** A line gives no Windows entry exactly when it is blank once stripped. */
  lemma WindowsDropsBlankLine(line: string)
    ensures WindowsName(line).None? <==> AllSpace(line)
  {
  }

  /** Each name followed by its own padding (the spaces and '\r' `wmic` pads its column with). */
  function PadNames(names: seq<string>, pads: seq<string>): (r: seq<string>)
    requires |pads| == |names|
    ensures |r| == |names|
    ensures forall i :: 0 <= i < |r| ==> r[i] == names[i] + pads[i]
  {
    if |names| == 0 then [] else [names[0] + pads[0]] + PadNames(names[1..], pads[1..])
  }

  /** A name line of the listing yields its name, however it is padded. */
  lemma WindowsNamePadded(name: string, pad: string)
    requires name != [] && IsStripped(name) && AllSpace(pad)
    ensures WindowsName(name + pad) == Some(name)
  {
    StripPadded("", name, pad);
    assert "" + name + pad == name + pad;
  }

  /** A `wmic product` listing (header line, one line per product padded to the column width,
      then blank lines) gives exactly the product names, in order. */
  lemma WindowsSoftwareOfListing(header: string, names: seq<string>, pads: seq<string>, blanks: seq<string>)
    requires |pads| == |names| && '\n' !in header
    requires forall i :: 0 <= i < |names| ==>
      && names[i] != [] && IsStripped(names[i]) && '\n' !in names[i]
      && AllSpace(pads[i]) && '\n' !in pads[i]
    requires forall i :: 0 <= i < |blanks| ==> AllSpace(blanks[i]) && '\n' !in blanks[i]
    ensures WindowsSoftware(Join("\n", [header] + PadNames(names, pads) + blanks)) == names
  {
    var rest := PadNames(names, pads) + blanks;
    ConsAppend(header, PadNames(names, pads), blanks);
    ListingLines(rest, names, pads, blanks);
    WindowsSoftwareOfLines(header, rest);
    WindowsNamesOfBody(names, pads, blanks);
  }

  /** Below its header line, the listing's lines are filtered one by one. */
  lemma WindowsSoftwareOfLines(header: string, rest: seq<string>)
    requires '\n' !in header && forall i :: 0 <= i < |rest| ==> '\n' !in rest[i]
    ensures WindowsSoftware(Join("\n", [header] + rest)) == FilterMap(rest, WindowsName)
  {
    var lines := [header] + rest;
    assert forall i :: 0 <= i < |lines| ==> '\n' !in lines[i] by {
      forall i | 0 <= i < |lines| ensures '\n' !in lines[i] {
        if i > 0 {
          assert lines[i] == rest[i - 1];
        }
      }
    }
    SplitOnJoin('\n', lines);
    AfterFirstCons(header, rest);
  }

  lemma ListingLines(rest: seq<string>, names: seq<string>, pads: seq<string>, blanks: seq<string>)
    requires |pads| == |names| && rest == PadNames(names, pads) + blanks
    requires forall i :: 0 <= i < |names| ==> '\n' !in names[i] && '\n' !in pads[i]
    requires forall i :: 0 <= i < |blanks| ==> '\n' !in blanks[i]
    ensures forall i :: 0 <= i < |rest| ==> '\n' !in rest[i]
  {
    forall i | 0 <= i < |rest| ensures '\n' !in rest[i] {
      if i < |names| {
        assert rest[i] == names[i] + pads[i];
      } else {
        assert rest[i] == blanks[i - |names|];
      }
    }
  }

  lemma WindowsNamesOfBody(names: seq<string>, pads: seq<string>, blanks: seq<string>)
    requires |pads| == |names|
    requires forall i :: 0 <= i < |names| ==> names[i] != [] && IsStripped(names[i]) && AllSpace(pads[i])
    requires forall i :: 0 <= i < |blanks| ==> AllSpace(blanks[i])
    ensures FilterMap(PadNames(names, pads) + blanks, WindowsName) == names
  {
    FilterMapAppend(PadNames(names, pads), blanks, WindowsName);
    FilterMapDropsAll(blanks, WindowsName);
    WindowsNamesOfPadded(names, pads);
    assert names + [] == names;
  }

  lemma WindowsNamesOfPadded(names: seq<string>, pads: seq<string>)
    requires |pads| == |names|
    requires forall i :: 0 <= i < |names| ==> names[i] != [] && IsStripped(names[i]) && AllSpace(pads[i])
    ensures FilterMap(PadNames(names, pads), WindowsName) == names
  {
    var padded := PadNames(names, pads);
    forall i | 0 <= i < |padded|
      ensures WindowsName(padded[i]) == Some(names[i])
    {
      WindowsNamePadded(names[i], pads[i]);
    }
    FilterMapAll(padded, WindowsName, names);
  }

  /** A `dpkg --get-selections` or `rpm -qa` line counts when it is not empty; it is then stripped. */
  function LinuxName(line: string): Option<string> {
    if line != [] then Some(Strip(line)) else None
  }

  /** The software list on Linux: one stripped entry per non-empty piece of the output split at
      '\n', header included; a line of only whitespace is kept, as an empty name. */
  function LinuxSoftware(text: string): (r: seq<string>)
    ensures |r| == Count(SplitOn(text, '\n'), (l: string) => l != [])
    ensures forall i :: 0 <= i < |r| ==> IsStripped(r[i])
  {
    var lines := SplitOn(text, '\n');
    FilterMapLength(lines, LinuxName, (l: string) => l != []);
    var r := FilterMap(lines, LinuxName);
    assert forall i :: 0 <= i < |r| ==> IsStripped(r[i]) by {
      forall i | 0 <= i < |r| ensures IsStripped(r[i]) {
        FilterMapOrigin(lines, LinuxName, i);
      }
    }
    r
  }

  /** Every piece of the output split at '\n' is filtered on its own, header included. */
  lemma LinuxSoftwareOfLines(lines: seq<string>)
    requires |lines| > 0 && forall i :: 0 <= i < |lines| ==> '\n' !in lines[i]
    ensures LinuxSoftware(Join("\n", lines)) == FilterMap(lines, LinuxName)
  {
    SplitOnJoin('\n', lines);
  }

  /** Package-manager output with a final newline gives each of its lines stripped, in order:
      padded names come back bare, a whitespace-only line as an empty name. */
  lemma LinuxSoftwareOfListing(lines: seq<string>)
    requires forall i :: 0 <= i < |lines| ==> lines[i] != [] && '\n' !in lines[i]
    ensures LinuxSoftware(Join("\n", lines + [""])) == Map(lines, Strip)
  {
    var all := lines + [""];
    assert forall i :: 0 <= i < |all| ==> '\n' !in all[i] by {
      forall i | 0 <= i < |all| ensures '\n' !in all[i] {
        if i < |lines| {
          assert all[i] == lines[i];
        }
      }
    }
    LinuxSoftwareOfLines(all);
    LinuxNamesOfListing(lines);
  }

  lemma LinuxNamesOfListing(lines: seq<string>)
    requires forall i :: 0 <= i < |lines| ==> lines[i] != []
    ensures FilterMap(lines + [""], LinuxName) == Map(lines, Strip)
  {
    FilterMapAppend(lines, [""], LinuxName);
    FilterMapAll(lines, LinuxName, Map(lines, Strip));
    assert FilterMap([""], LinuxName) == [];
    assert Map(lines, Strip) + [] == Map(lines, Strip);
  }

  /** Unlike the Windows list, the Linux list keeps a whitespace-only line, as an empty name:
      the emptiness test comes before the stripping. */
  lemma LinuxKeepsBlankLine(line: string)
    requires line != [] && AllSpace(line)
    ensures LinuxName(line) == Some("")
  {
  }

  /** A `system_profiler SPApplicationsDataType` line counts when it contains "Location:"; it is
      then stripped, so only whitespace is cut from either end. */
  function MacName(line: string): (r: Option<string>)
    ensures r.Some? <==> Contains(line, "Location:")
    ensures r.Some? ==> IsStripped(r.value) && Contains(r.value, "Location:")
    ensures r.Some? ==> Trims(line, r.value, LeadingSpaces(line))
  {
    if Contains(line, "Location:") then
      assert IsWord("Location:");
      StripKeepsWord(line, "Location:");
      StripTrims(line);
      Some(Strip(line))
    else None
  }

  /** The software list on macOS: the stripped lines of `system_profiler` output that mention an
      application's location. */
  function MacSoftware(text: string): (r: seq<string>)
    ensures |r| == Count(SplitOn(text, '\n'), (l: string) => Contains(l, "Location:"))
    ensures forall i :: 0 <= i < |r| ==> IsStripped(r[i]) && Contains(r[i], "Location:")
  {
    var lines := SplitOn(text, '\n');
    FilterMapLength(lines, MacName, (l: string) => Contains(l, "Location:"));
    var r := FilterMap(lines, MacName);
    assert forall i :: 0 <= i < |r| ==> IsStripped(r[i]) && Contains(r[i], "Location:") by {
      forall i | 0 <= i < |r| ensures IsStripped(r[i]) && Contains(r[i], "Location:") {
        FilterMapOrigin(lines, MacName, i);
        var j :| 0 <= j < |lines| && MacName(lines[j]) == Some(r[i]);
      }
    }
    r
  }

  /** A line of `system_profiler` output: an application's indented `Location: <path>` line,
      or any other line. */
  datatype ProfilerLine =
    | Located(indent: string, path: string, pad: string)
    | Other(text: string)

  function ProfilerText(l: ProfilerLine): string {
    match l
    case Located(indent, path, pad) => indent + "Location: " + path + pad
    case Other(text) => text
  }

  /** A line `system_profiler` may print: a location line's path is stripped and its padding
      whitespace, and any other line does not mention "Location:". */
  predicate IsProfilerLine(l: ProfilerLine) {
    match l
    case Located(indent, path, pad) =>
      && AllSpace(indent) && AllSpace(pad) && path != [] && IsStripped(path)
      && '\n' !in indent && '\n' !in path && '\n' !in pad
    case Other(text) => '\n' !in text && !Contains(text, "Location:")
  }

  /** Reference mapping: a location line gives `Location: <path>`, any other line nothing. */
  function LocatedEntry(l: ProfilerLine): Option<string> {
    match l
    case Located(_, path, _) => Some("Location: " + path)
    case Other(_) => None
  }

  lemma MacNameOfLine(l: ProfilerLine)
    requires IsProfilerLine(l)
    ensures '\n' !in ProfilerText(l)
    ensures MacName(ProfilerText(l)) == LocatedEntry(l)
  {
    match l
    case Located(indent, path, pad) =>
      LocatedLine(indent, path, pad);
    case Other(_) =>
  }

  /** An indented location line is one line; it yields `Location: <path>`. */
  lemma LocatedLine(indent: string, path: string, pad: string)
    requires AllSpace(indent) && AllSpace(pad) && path != [] && IsStripped(path)
    requires '\n' !in indent && '\n' !in path && '\n' !in pad
    ensures '\n' !in indent + "Location: " + path + pad
    ensures MacName(indent + "Location: " + path + pad) == Some("Location: " + path)
  {
    var w := "Location: " + path;
    var line := indent + w + pad;
    assert line == indent + "Location: " + path + pad;
    assert '\n' !in "Location: ";
    assert line == indent + "Location:" + (" " + path + pad);
    ContainsInfix(indent, "Location:", " " + path + pad);
    assert IsStripped(w) by {
      assert w[0] == 'L' && w[|w| - 1] == path[|path| - 1];
    }
    StripPadded(indent, w, pad);
  }

  /** Every piece of the output split at '\n' is filtered on its own. */
  lemma MacSoftwareOfLines(texts: seq<string>)
    requires forall i :: 0 <= i < |texts| ==> '\n' !in texts[i]
    ensures MacSoftware(Join("\n", texts)) == FilterMap(texts, MacName)
  {
    if |texts| == 0 {
      assert SplitOn("", '\n') == [""];
      assert MacName("") == None;
    } else {
      SplitOnJoin('\n', texts);
    }
  }

  /** `system_profiler` output gives the location lines, stripped, in order; every other line
      is dropped. */
  lemma MacSoftwareOfListing(lines: seq<ProfilerLine>)
    requires forall i :: 0 <= i < |lines| ==> IsProfilerLine(lines[i])
    ensures MacSoftware(Join("\n", Map(lines, ProfilerText))) == FilterMap(lines, LocatedEntry)
  {
    var texts := Map(lines, ProfilerText);
    forall i | 0 <= i < |texts|
      ensures '\n' !in texts[i]
      ensures MacName(texts[i]) == LocatedEntry(lines[i])
    {
      MacNameOfLine(lines[i]);
    }
    MacSoftwareOfLines(texts);
    FilterMapPointwise(texts, MacName, lines, LocatedEntry);
  }
}

=== FILE: probes.dfy ===
/** The probes of `system_audit.py`: which command each one runs on which system, how a failing
    command is recorded in place of its result, and the inventory they assemble.

    Everything the script asks of the machine is a field of `Host`: the `platform` strings, the
    host name, the outcome of resolving it, the MAC address, whether `/usr/bin/dpkg` exists, and
    the outcome of each external command (its decoded output, or the message of the exception
    it raised). */
module Probes {
  import opened Wrappers
  import opened Parsers

  /** The external commands and files the probes read. */
  datatype Command =
    | MemoryChips          // wmic memorychip get capacity
    | MeminfoFile          // reading /proc/meminfo
    | MemsizeSysctl        // sysctl hw.memsize
    | LogicalDisks         // wmic logicaldisk get deviceid,freespace,size
    | RootFilesystem       // df -h /
    | WhoCommand           // who
    | Products             // wmic product get name
    | DpkgSelections       // dpkg --get-selections
    | RpmPackages          // rpm -qa
    | ApplicationsProfile  // system_profiler SPApplicationsDataType

  datatype Host = Host(
    system: string,                 // platform.system()
    release: string,                // platform.release()
    machine: string,                // platform.machine()
    processor: string,              // platform.processor()
    hostname: string,               // socket.gethostname()
    address: Call<string>,          // socket.gethostbyname(hostname)
    mac: Option<string>,            // get_mac_address(), None when it finds none
    hasDpkg: bool,                  // os.path.exists("/usr/bin/dpkg")
    output: Command -> Call<string> // each command's decoded output, or what it raised
  )

  function MemoryCommand(system: string): Option<Command> {
    if system == "Windows" then Some(MemoryChips)
    else if system == "Linux" then Some(MeminfoFile)
    else if system == "Darwin" then Some(MemsizeSysctl)
    else None
  }

  function DiskCommand(system: string): Option<Command> {
    if system == "Windows" then Some(LogicalDisks)
    else if system == "Linux" || system == "Darwin" then Some(RootFilesystem)
    else None
  }

  function SoftwareCommand(system: string, hasDpkg: bool): Option<Command> {
    if system == "Windows" then Some(Products)
    else if system == "Linux" then Some(if hasDpkg then DpkgSelections else RpmPackages)
    else if system == "Darwin" then Some(ApplicationsProfile)
    else None
  }

  /** `get_total_memory()`: the amount in the unit the system reports, `NotReported` on other
      systems, the exception's message when the command or the parsing raises. */
  function TotalMemory(h: Host): (r: Memory)
    ensures MemoryCommand(h.system).None? ==> r == NotReported
    ensures MemoryCommand(h.system).Some? && h.output(MemoryCommand(h.system).value).Raised? ==>
      r == MemoryError(CommandFailed(h.output(MemoryCommand(h.system).value).message))
    ensures r.Capacity? ==> (r.unit == Bytes <==> h.system != "Linux")
  {
    match MemoryCommand(h.system)
    case None => NotReported
    case Some(c) =>
      match h.output(c)
      case Raised(m) => MemoryError(CommandFailed(m))
      case Returned(text) =>
        if c == MemoryChips then Capacity(WindowsMemoryBytes(text), Bytes)
        else if c == MeminfoFile then MeminfoTotal(text)
        else SysctlBytes(text)
  }

  /** `get_disk_usage()`: a failing command leaves the single error entry in the list. */
  function DiskUsage(h: Host): (r: seq<DiskEntry>)
    ensures DiskCommand(h.system).None? ==> r == []
    ensures DiskCommand(h.system).Some? && h.output(DiskCommand(h.system).value).Raised? ==>
      r == [DiskError(CommandFailed(h.output(DiskCommand(h.system).value).message))]
    ensures forall i :: 0 <= i < |r| - 1 ==> r[i].Disk?
  {
    match DiskCommand(h.system)
    case None => []
    case Some(c) =>
      match h.output(c)
      case Raised(m) => [DiskError(CommandFailed(m))]
      case Returned(text) => if c == LogicalDisks then WmicDisks(text) else DfDisks(text)
  }

  /** `get_logged_in_users()`, the same on every system. */
  function LoggedInUsers(h: Host): (r: seq<UserEntry>)
    ensures h.output(WhoCommand).Raised? ==> r == [UserError(CommandFailed(h.output(WhoCommand).message))]
    ensures h.output(WhoCommand).Returned? ==> forall i :: 0 <= i < |r| ==> r[i].User?
  {
    match h.output(WhoCommand)
    case Raised(m) => [UserError(CommandFailed(m))]
    case Returned(text) => WhoUsers(text)
  }

  const SoftwareErrorPrefix := "Error fetching software list: "

  /** `get_installed_software()`: on Linux the dpkg listing when `/usr/bin/dpkg` exists and the
      rpm listing otherwise; a failing command leaves one message in the list. */
  function InstalledSoftware(h: Host): (r: seq<string>)
    ensures SoftwareCommand(h.system, h.hasDpkg).None? ==> r == []
    ensures SoftwareCommand(h.system, h.hasDpkg).Some? && h.output(SoftwareCommand(h.system, h.hasDpkg).value).Raised? ==>
      r == [SoftwareErrorPrefix + h.output(SoftwareCommand(h.system, h.hasDpkg).value).message]
  {
    match SoftwareCommand(h.system, h.hasDpkg)
    case None => []
    case Some(c) =>
      match h.output(c)
      case Raised(m) => [SoftwareErrorPrefix + m]
      case Returned(text) =>
        if c == Products then WindowsSoftware(text)
        else if c == ApplicationsProfile then MacSoftware(text)
        else LinuxSoftware(text)
  }

  datatype SystemInfo = SystemInfo(
    hostname: string,
    operatingSystem: string,
    architecture: string,
    processor: string,
    ipAddress: string,
    macAddress: Option<string>,
    ram: Memory
  )

  /** `get_system_info()`: the only probe without a `try`, so a failing name lookup raises out
      of it. */
  function SystemInformation(h: Host): (r: Call<SystemInfo>)
    ensures r.Raised? <==> h.address.Raised?
    ensures r.Raised? ==> r.message == h.address.message
    ensures r.Returned? ==> r.value.operatingSystem == h.system + " " + h.release && r.value.ipAddress == h.address.value
  {
    match h.address
    case Raised(m) => Raised(m)
    case Returned(ip) =>
      Returned(SystemInfo(h.hostname, h.system + " " + h.release, h.machine, h.processor, ip, h.mac, TotalMemory(h)))
  }

  /** What one run gathers for its report. */
  datatype Inventory = Inventory(
    system: SystemInfo,
    disks: seq<DiskEntry>,
    users: seq<UserEntry>,
    software: seq<string>
  )

  /** The probes in the order the report lists them; only the name lookup can abort. */
  function Collect(h: Host): (r: Call<Inventory>)
    ensures r.Raised? <==> h.address.Raised?
    ensures r.Returned? ==> r.value.disks == DiskUsage(h) && r.value.users == LoggedInUsers(h)
    ensures r.Returned? ==> r.value.software == InstalledSoftware(h) && r.value.system.ram == TotalMemory(h)
  {
    match SystemInformation(h)
    case Raised(m) => Raised(m)
    case Returned(info) => Returned(Inventory(info, DiskUsage(h), LoggedInUsers(h), InstalledSoftware(h)))
  }

  /** `h` with command `c` giving `out` instead. */
  function WithOutput(h: Host, c: Command, out: Call<string>): (g: Host)
    ensures g.output(c) == out
    ensures forall d :: d != c ==> g.output(d) == h.output(d)
  {
    h.(output := (d: Command) => if d == c then out else h.output(d))
  }

  /** Each probe reads only its own command: changing the outcome of any other command, a failure
      included, leaves its result as it was. */
  lemma ProbesIsolated(h: Host, c: Command, out: Call<string>)
    ensures MemoryCommand(h.system) != Some(c) ==> TotalMemory(WithOutput(h, c, out)) == TotalMemory(h)
    ensures DiskCommand(h.system) != Some(c) ==> DiskUsage(WithOutput(h, c, out)) == DiskUsage(h)
    ensures c != WhoCommand ==> LoggedInUsers(WithOutput(h, c, out)) == LoggedInUsers(h)
    ensures SoftwareCommand(h.system, h.hasDpkg) != Some(c) ==>
      InstalledSoftware(WithOutput(h, c, out)) == InstalledSoftware(h)
  {
    var g := WithOutput(h, c, out);
    assert g.system == h.system && g.hasDpkg == h.hasDpkg;
    MemoryIsolated(h, g, c);
    DiskIsolated(h, g, c);
    SoftwareIsolated(h, g, c);
  }

  lemma MemoryIsolated(h: Host, g: Host, c: Command)
    requires g.system == h.system && forall d :: d != c ==> g.output(d) == h.output(d)
    ensures MemoryCommand(h.system) != Some(c) ==> TotalMemory(g) == TotalMemory(h)
  {
  }

  lemma DiskIsolated(h: Host, g: Host, c: Command)
    requires g.system == h.system && forall d :: d != c ==> g.output(d) == h.output(d)
    ensures DiskCommand(h.system) != Some(c) ==> DiskUsage(g) == DiskUsage(h)
  {
  }

  lemma SoftwareIsolated(h: Host, g: Host, c: Command)
    requires g.system == h.system && g.hasDpkg == h.hasDpkg
    requires forall d :: d != c ==> g.output(d) == h.output(d)
    ensures SoftwareCommand(h.system, h.hasDpkg) != Some(c) ==> InstalledSoftware(g) == InstalledSoftware(h)
  {
  }

  /** A failing command never aborts the run: the inventory is still gathered, with the failure
      recorded in the probe that ran the command and every other probe as before. */
  lemma CommandFailureCaptured(h: Host, c: Command, m: string)
    requires h.address.Returned?
    ensures Collect(WithOutput(h, c, Raised(m))).Returned?
    ensures DiskCommand(h.system) == Some(c) ==>
      Collect(WithOutput(h, c, Raised(m))).value.disks == [DiskError(CommandFailed(m))]
    ensures c == WhoCommand ==>
      Collect(WithOutput(h, c, Raised(m))).value.users == [UserError(CommandFailed(m))]
    ensures SoftwareCommand(h.system, h.hasDpkg) == Some(c) ==>
      Collect(WithOutput(h, c, Raised(m))).value.software == [SoftwareErrorPrefix + m]
    ensures MemoryCommand(h.system) == Some(c) ==>
      Collect(WithOutput(h, c, Raised(m))).value.system.ram == MemoryError(CommandFailed(m))
  {
    var g := WithOutput(h, c, Raised(m));
    assert g.system == h.system && g.hasDpkg == h.hasDpkg && g.address == h.address;
  }

  /** Which command each probe runs: the memory, disk and software commands belong to one system
      each (dpkg and rpm to Linux), and every system's commands are distinct. */
  lemma CommandsPerSystem(system: string, hasDpkg: bool)
    ensures MemoryCommand(system).Some? <==> system in {"Windows", "Linux", "Darwin"}
    ensures DiskCommand(system).Some? <==> system in {"Windows", "Linux", "Darwin"}
    ensures SoftwareCommand(system, hasDpkg).Some? <==> system in {"Windows", "Linux", "Darwin"}
    ensures SoftwareCommand(system, hasDpkg) in {Some(DpkgSelections), Some(RpmPackages)} <==> system == "Linux"
    ensures MemoryCommand(system).Some? ==>
      MemoryCommand(system) != DiskCommand(system) && MemoryCommand(system) != SoftwareCommand(system, hasDpkg)
      && DiskCommand(system) != SoftwareCommand(system, hasDpkg)
    ensures DiskCommand(system) != Some(WhoCommand) && MemoryCommand(system) != Some(WhoCommand)
      && SoftwareCommand(system, hasDpkg) != Some(WhoCommand)
  {
  }
}

=== FILE: pyint.dfy ===
/** Decimal integers as the audit script reads them: `str.isdigit()`, `int(s)` and `str(n)`. */
module PyInt {
  import opened Wrappers
  import opened PyStr

  predicate IsDigit(c: char) {
    '0' <= c <= '9'
  }

  predicate AllDigits(s: string) {
    forall i :: 0 <= i < |s| ==> IsDigit(s[i])
  }

  /** `s.isdigit()`: a non-empty string of decimal digits. */
  predicate IsDigits(s: string) {
    |s| > 0 && AllDigits(s)
  }

  function DigitValue(c: char): nat
    requires IsDigit(c)
  {
    (c as int) - ('0' as int)
  }

  function DigitChar(d: nat): (c: char)
    requires d < 10
    ensures IsDigit(c) && DigitValue(c) == d
  {
    ('0' as int + d) as char
  }

  /** The number a string of decimal digits denotes, most significant digit first. */
  function DigitsValue(s: string): nat
    requires AllDigits(s)
  {
    if |s| == 0 then 0 else DigitsValue(s[..|s| - 1]) * 10 + DigitValue(s[|s| - 1])
  }

  /** `str(n)` for `n >= 0`: the decimal digits of `n`, with no leading zero. */
  function Decimal(n: nat): (s: string)
    ensures IsDigits(s)
    ensures DigitsValue(s) == n
    ensures |s| > 1 ==> s[0] != '0'
  {
    if n < 10 then [DigitChar(n)]
    else
      var s := Decimal(n / 10) + [DigitChar(n % 10)];
      assert s[..|s| - 1] == Decimal(n / 10);
      s
  }

  /** The digits `int()` accepts: decimal digits with single underscores between them, as in
      `"1_000"`. */
  predicate IsDigitGroups(s: string) {
    && |s| > 0 && IsDigit(s[0]) && IsDigit(s[|s| - 1])
    && (forall i :: 0 <= i < |s| ==> IsDigit(s[i]) || s[i] == '_')
    && (forall i :: 0 <= i < |s| - 1 ==> s[i] == '_' ==> s[i + 1] != '_')
  }

  /** `s` with its underscores removed. */
  function Digits(s: string): (d: string)
    requires forall i :: 0 <= i < |s| ==> IsDigit(s[i]) || s[i] == '_'
    ensures AllDigits(d)
    ensures AllDigits(s) ==> d == s
  {
    if |s| == 0 then ""
    else if s[0] == '_' then Digits(s[1..])
    else
      var d := [s[0]] + Digits(s[1..]);
      assert AllDigits(s) ==> s == [s[0]] + s[1..];
      d
  }

  /** What every literal `int()` accepts once stripped looks like: it ends in a digit, a sign may
      stand only in front, and every other character is a digit or an underscore that follows
      a digit. */
  predicate LiteralShaped(t: string) {
    && |t| > 0 && IsDigit(t[|t| - 1])
    && (forall i :: 0 <= i < |t| ==>
          || IsDigit(t[i])
          || (i == 0 && (t[i] == '+' || t[i] == '-'))
          || (0 < i && t[i] == '_'))
    && (forall i :: 0 < i < |t| && t[i] == '_' ==> IsDigit(t[i - 1]))
  }

  /** A character that can occur in text `int()` accepts. */
  predicate IsLiteralChar(c: char) {
    IsDigit(c) || IsSpace(c) || c == '+' || c == '-' || c == '_'
  }

  /** A literal `int()` accepts once whitespace is stripped: an optional sign, then digit groups. */
  function ParseLiteral(t: string): (r: Option<int>)
    ensures IsDigits(t) ==> r == Some(DigitsValue(t))
    ensures r.Some? ==> LiteralShaped(t)
    ensures r.Some? && r.value < 0 ==> t[0] == '-'
  {
    if |t| > 0 && (t[0] == '+' || t[0] == '-') then
      var body := t[1..];
      if IsDigitGroups(body) then
        assert LiteralShaped(t) by {
          forall i | 0 < i < |t|
            ensures IsDigit(t[i]) || (t[i] == '_' && IsDigit(t[i - 1]))
          {
            assert t[i] == body[i - 1];
            if i > 1 && t[i] == '_' {
              assert t[i - 1] == body[i - 2];
            }
          }
        }
        var v: int := DigitsValue(Digits(body));
        Some(if t[0] == '-' then -v else v)
      else None
    else if IsDigitGroups(t) then Some(DigitsValue(Digits(t)))
    else None
  }

  /** `int(s)` in base 10: surrounding whitespace is ignored, one optional sign is allowed, and
      anything else `int()` would reject (it raises `ValueError`) gives `None`. */
  function ParseInt(s: string): (r: Option<int>)
    ensures IsDigits(s) ==> r == Some(DigitsValue(s))
    ensures r.Some? ==> !AllSpace(s) && LiteralShaped(Strip(s))
  {
    assert IsDigits(s) ==> Strip(s) == s by {
      if IsDigits(s) {
        DigitsAreWord(s);
        StripStripped(s);
      }
    }
    ParseLiteral(Strip(s))
  }

  /** `int()` raises `ValueError` on any text holding a character other than a digit, a sign,
      an underscore or whitespace: a letter, a decimal point, a thousands comma. */
  lemma ParseIntRejects(s: string, x: int)
    requires 0 <= x < |s| && !IsLiteralChar(s[x])
    ensures ParseInt(s).None?
  {
    if ParseInt(s).Some? {
      StrippedLiteralChars(s);
      assert false;
    }
  }

  /** Text whose stripped form is shaped like a literal holds only characters of literals. */
  lemma StrippedLiteralChars(s: string)
    requires LiteralShaped(Strip(s))
    ensures forall i :: 0 <= i < |s| ==> IsLiteralChar(s[i])
  {
    var t, n := Strip(s), LeadingSpaces(s);
    StripTrims(s);
    forall i | 0 <= i < |s|
      ensures IsLiteralChar(s[i])
    {
      if n <= i < n + |t| {
        assert s[i] == t[i - n];
      }
    }
  }

  /** A digit string is a single whitespace-free field. */
  lemma DigitsAreWord(s: string)
    requires IsDigits(s)
    ensures IsWord(s) && IsStripped(s)
  {
    forall i | 0 <= i < |s|
      ensures !IsSpace(s[i])
    {
      assert IsDigit(s[i]);
    }
  }

  lemma {:induction false} DigitsValuePositive(s: string)
    requires IsDigits(s) && s[0] != '0'
    ensures DigitsValue(s) >= 1
  {
    if |s| > 1 {
      DigitsValuePositive(s[..|s| - 1]);
    }
  }

  /** `str(int(s))` gives back a digit string that has no leading zero. */
  lemma {:induction false} DecimalOfDigits(s: string)
    requires IsDigits(s) && (|s| == 1 || s[0] != '0')
    ensures Decimal(DigitsValue(s)) == s
  {
    if |s| > 1 {
      var p := s[..|s| - 1];
      DigitsValuePositive(p);
      DecimalOfDigits(p);
      var n := DigitsValue(s);
      assert n / 10 == DigitsValue(p) && n % 10 == DigitValue(s[|s| - 1]);
      assert s == p + [s[|s| - 1]];
    }
  }

  /** `int("-" + str(n)) == -n`. */
  lemma ParseNegativeDecimal(n: nat)
    ensures ParseInt("-" + Decimal(n)) == Some(-(n as int))
  {
    var d := Decimal(n);
    var s := "-" + d;
    NegativeStripped(d);
    ParseStripped(s);
    assert s[1..] == d;
    NegativeLiteral(s);
  }

  /** Text without surrounding whitespace is read as it stands. */
  lemma ParseStripped(s: string)
    requires IsStripped(s)
    ensures ParseInt(s) == ParseLiteral(s)
  {
    StripStripped(s);
  }

  lemma NegativeStripped(d: string)
    requires IsDigits(d)
    ensures IsStripped("-" + d)
  {
    var s := "-" + d;
    assert s[|s| - 1] == d[|d| - 1];
    assert IsDigit(d[|d| - 1]);
  }

  /** A minus sign before a digit string negates its value. */
  lemma NegativeLiteral(t: string)
    requires |t| > 1 && t[0] == '-' && IsDigits(t[1..])
    ensures ParseLiteral(t) == Some(-(DigitsValue(t[1..]) as int))
  {
    var body := t[1..];
    assert IsDigitGroups(body);
  }
}

=== FILE: pystr.dfy ===
/** The parts of Python's `str` the audit script relies on, over `string` (`seq<char>`).
    Whitespace and line breaks are the full Unicode sets Python uses for `str`. */
module PyStr {

  /** `c.isspace()`: what `str.split()` and `str.strip()` (no arguments) treat as whitespace. */
  predicate IsSpace(c: char) {
    || '\t' <= c <= '\r'
    || '\U{1C}' <= c <= ' '
    || c == '\U{85}' || c == '\U{A0}' || c == '\U{1680}'
    || '\U{2000}' <= c <= '\U{200A}'
    || c == '\U{2028}' || c == '\U{2029}' || c == '\U{202F}' || c == '\U{205F}' || c == '\U{3000}'
  }

  /** The characters `str.splitlines()` ends a line at; `"\r\n"` counts as a single break. */
  predicate IsLineBreak(c: char) {
    || '\n' <= c <= '\r'
    || '\U{1C}' <= c <= '\U{1E}'
    || c == '\U{85}' || c == '\U{2028}' || c == '\U{2029}'
  }

  predicate AllSpace(s: string) {
    forall i :: 0 <= i < |s| ==> IsSpace(s[i])
  }

  predicate NoSpace(s: string) {
    forall i :: 0 <= i < |s| ==> !IsSpace(s[i])
  }

  /** A non-empty, whitespace-free string: the shape of every field `str.split()` returns. */
  predicate IsWord(s: string) {
    |s| > 0 && NoSpace(s)
  }

  predicate AllWords(ts: seq<string>) {
    forall i :: 0 <= i < |ts| ==> IsWord(ts[i])
  }

  predicate NoBreak(s: string) {
    forall i :: 0 <= i < |s| ==> !IsLineBreak(s[i])
  }

  /** A string with no whitespace at either end: what `str.strip()` returns. */
  predicate IsStripped(s: string) {
    s == [] || (!IsSpace(s[0]) && !IsSpace(s[|s| - 1]))
  }

  /** `sep.join(ts)`. */
  function Join(sep: string, ts: seq<string>): string {
    if |ts| == 0 then ""
    else if |ts| == 1 then ts[0]
    else ts[0] + sep + Join(sep, ts[1..])
  }

  /** A field printed in a column, followed by the whitespace that pads it to the next column. */
  datatype Cell = Cell(field: string, gap: string)

  /** The cells printed one after another. */
  function Cells(cs: seq<Cell>): string {
    if |cs| == 0 then "" else cs[0].field + cs[0].gap + Cells(cs[1..])
  }

  function Fields(cs: seq<Cell>): (fs: seq<string>)
    ensures |fs| == |cs|
    ensures forall i :: 0 <= i < |cs| ==> fs[i] == cs[i].field
  {
    if |cs| == 0 then [] else [cs[0].field] + Fields(cs[1..])
  }

  /** Whitespace-free fields, each padded by whitespace of its own width; only the padding
      after the last field may be empty. */
  predicate Aligned(cs: seq<Cell>) {
    forall i :: 0 <= i < |cs| ==>
      && IsWord(cs[i].field) && AllSpace(cs[i].gap)
      && (i < |cs| - 1 ==> cs[i].gap != [])
  }

  /** A line as a command prints it: the text, then the terminator `str.splitlines()` removes. */
  datatype PrintedLine = PrintedLine(text: string, end: string)

  function Print(ls: seq<PrintedLine>): string {
    if |ls| == 0 then "" else ls[0].text + ls[0].end + Print(ls[1..])
  }

  function Texts(ls: seq<PrintedLine>): (ts: seq<string>)
    ensures |ts| == |ls|
    ensures forall i :: 0 <= i < |ls| ==> ts[i] == ls[i].text
  {
    if |ls| == 0 then [] else [ls[0].text] + Texts(ls[1..])
  }

  /** The terminators that end one line each: Unix, Windows and old Mac line ends. */
  predicate IsLineEnd(e: string) {
    e == "\n" || e == "\r\n" || e == "\r"
  }

  /** Lines that `str.splitlines()` reads back one for one: no break inside a line, and a
      lone `"\r"` is never followed by an empty line ended by `"\n"` (the two would read
      as a single `"\r\n"`). */
  predicate WellPrinted(ls: seq<PrintedLine>) {
    forall i :: 0 <= i < |ls| ==>
      && NoBreak(ls[i].text) && IsLineEnd(ls[i].end)
      && (ls[i].end == "\r" && i + 1 < |ls| ==> ls[i + 1].text != [] || ls[i + 1].end != "\n")
  }

  // ---------------------------------------------------------------- str.split()

  /** Length of the longest whitespace-free prefix of `s`. */
  function WordLength(s: string): (n: nat)
    ensures n <= |s|
    ensures NoSpace(s[..n])
    ensures n < |s| ==> IsSpace(s[n])
  {
    if |s| == 0 || IsSpace(s[0]) then 0
    else
      var m := WordLength(s[1..]);
      assert s[..m + 1] == [s[0]] + s[1..][..m];
      1 + m
  }

  /** `s.split()`: the maximal runs of non-whitespace characters, in order; runs of whitespace
      of any length separate fields and never produce an empty field. */
  function Split(s: string): (r: seq<string>)
    ensures AllWords(r)
    ensures r == [] <==> AllSpace(s)
    decreases |s|
  {
    if |s| == 0 then []
    else if IsSpace(s[0]) then
      var r := Split(s[1..]);
      assert AllSpace(s[1..]) <==> AllSpace(s) by {
        assert forall i :: 1 <= i < |s| ==> s[i] == s[1..][i - 1];
      }
      r
    else
      var n := WordLength(s);
      [s[..n]] + Split(s[n..])
  }

  // ------------------------------------------------------------ str.split(c)

  /** Length of the longest prefix of `s` that does not contain `c`. */
  function LengthBefore(s: string, c: char): (n: nat)
    ensures n <= |s|
    ensures c !in s[..n]
    ensures n < |s| ==> s[n] == c
  {
    if |s| == 0 || s[0] == c then 0
    else
      var m := LengthBefore(s[1..], c);
      assert s[..m + 1] == [s[0]] + s[1..][..m];
      1 + m
  }

  /** `s.split(c)` for a one-character separator: the text between consecutive separators,
      empty pieces included. Joining the pieces with `c` gives `s` back. */
  function SplitOn(s: string, c: char): (r: seq<string>)
    ensures |r| >= 1
    ensures forall i :: 0 <= i < |r| ==> c !in r[i]
    ensures Join([c], r) == s
    decreases |s|
  {
    var n := LengthBefore(s, c);
    if n == |s| then [s]
    else
      var rest := SplitOn(s[n + 1..], c);
      var r := [s[..n]] + rest;
      assert r[1..] == rest;
      assert s == s[..n] + [c] + s[n + 1..];
      r
  }

  // ------------------------------------------------------------ str.splitlines()

  /** Length of the longest prefix of `s` without a line break. */
  function LineLength(s: string): (n: nat)
    ensures n <= |s|
    ensures NoBreak(s[..n])
    ensures n < |s| ==> IsLineBreak(s[n])
  {
    if |s| == 0 || IsLineBreak(s[0]) then 0
    else
      var m := LineLength(s[1..]);
      assert s[..m + 1] == [s[0]] + s[1..][..m];
      1 + m
  }

  /** `s.splitlines()`: the lines of `s` without their terminators; a final terminator does not
      start an extra empty line, and the empty string has no lines. */
  function SplitLines(s: string): (r: seq<string>)
    ensures forall i :: 0 <= i < |r| ==> NoBreak(r[i])
    ensures |r| <= |s|
    decreases |s|
  {
    if |s| == 0 then []
    else
      var n := LineLength(s);
      if n == |s| then [s]
      else
        var next := if s[n] == '\r' && n + 1 < |s| && s[n + 1] == '\n' then n + 2 else n + 1;
        [s[..n]] + SplitLines(s[next..])
  }

  // ------------------------------------------------------------ str.strip()

  /** Number of whitespace characters at the start of `s`. */
  function LeadingSpaces(s: string): (n: nat)
    ensures n <= |s|
    ensures forall x :: 0 <= x < n ==> IsSpace(s[x])
    ensures n < |s| ==> !IsSpace(s[n])
  {
    if |s| == 0 || !IsSpace(s[0]) then 0
    else 1 + LeadingSpaces(s[1..])
  }

  /** Number of whitespace characters at the end of `s`. */
  function TrailingSpaces(s: string): (n: nat)
    ensures n <= |s|
    ensures forall x :: |s| - n <= x < |s| ==> IsSpace(s[x])
    ensures n < |s| ==> !IsSpace(s[|s| - n - 1])
  {
    if |s| == 0 || !IsSpace(s[|s| - 1]) then 0
    else 1 + TrailingSpaces(s[..|s| - 1])
  }

  /** `s.strip()`: `s` without its leading and trailing whitespace. */
  function Strip(s: string): (r: string)
    ensures IsStripped(r)
    ensures r == [] <==> AllSpace(s)
  {
    var i := LeadingSpaces(s);
    if i == |s| then []
    else
      var j := |s| - TrailingSpaces(s);
      assert i < j;
      s[i..j]
  }

  /** `r` is the part of `s` from `i` on, with only whitespace before and after it. */
  predicate Trims(s: string, r: string, i: int) {
    && 0 <= i <= |s| - |r|
    && (forall x :: 0 <= x < |r| ==> r[x] == s[i + x])
    && (forall x :: 0 <= x < i ==> IsSpace(s[x]))
    && (forall x :: i + |r| <= x < |s| ==> IsSpace(s[x]))
  }

  /** `strip()` cuts `s` after its leading and before its trailing whitespace. */
  lemma StripTrims(s: string)
    ensures Trims(s, Strip(s), LeadingSpaces(s))
  {
    var i := LeadingSpaces(s);
    if i < |s| {
      var j := |s| - TrailingSpaces(s);
      SliceTrims(s, i, j);
    }
  }

  /** The slice between whitespace-only ends is a trim. */
  lemma SliceTrims(s: string, i: int, j: int)
    requires 0 <= i <= j <= |s|
    requires forall x :: 0 <= x < i ==> IsSpace(s[x])
    requires forall x :: j <= x < |s| ==> IsSpace(s[x])
    ensures Trims(s, s[i..j], i)
  {
  }

  lemma AllSpaceConcat(a: string, b: string)
    requires AllSpace(a) && AllSpace(b)
    ensures AllSpace(a + b)
  {
  }

  // ------------------------------------------------------------ sub in s

  /** `sub` occurs in `s` starting at position `i`. */
  predicate OccursAt(s: string, sub: string, i: int) {
    0 <= i <= |s| - |sub| && s[i..i + |sub|] == sub
  }

  /** `sub in s`: whether `sub` occurs in `s` at some position. */
  function Contains(s: string, sub: string): (b: bool)
    ensures b <==> exists i :: OccursAt(s, sub, i)
    decreases |s|
  {
    if |sub| > |s| then
      assert forall i :: !OccursAt(s, sub, i);
      false
    else if sub <= s then
      assert OccursAt(s, sub, 0);
      true
    else
      var b := Contains(s[1..], sub);
      assert b ==> exists i :: OccursAt(s, sub, i) by {
        if b {
          var k :| OccursAt(s[1..], sub, k);
          assert s[k + 1..k + 1 + |sub|] == s[1..][k..k + |sub|];
          assert OccursAt(s, sub, k + 1);
        }
      }
      assert (exists i :: OccursAt(s, sub, i)) ==> b by {
        if exists i :: OccursAt(s, sub, i) {
          var k :| OccursAt(s, sub, k);
          assert k != 0;
          assert s[1..][k - 1..k - 1 + |sub|] == s[k..k + |sub|];
          assert OccursAt(s[1..], sub, k - 1);
        }
      }
      b
  }

  // ------------------------------------------------------------ split() and join()

  lemma {:induction false} WordLengthAppend(a: string, t: string)
    requires WordLength(a) < |a| || (|t| > 0 && IsSpace(t[0]))
    ensures WordLength(a + t) == WordLength(a)
  {
    if |a| > 0 && !IsSpace(a[0]) {
      assert (a + t)[1..] == a[1..] + t;
      WordLengthAppend(a[1..], t);
    }
  }

  /** Leading whitespace never produces a field. */
  lemma {:induction false} SplitSkipsSpace(sp: string, b: string)
    requires AllSpace(sp)
    ensures Split(sp + b) == Split(b)
  {
    if |sp| > 0 {
      var s := sp + b;
      assert IsSpace(s[0]);
      assert s[1..] == sp[1..] + b;
      SplitSkipsSpace(sp[1..], b);
      assert Split(s) == Split(s[1..]);
    } else {
      assert sp + b == b;
    }
  }

  /** A whitespace separator of any length splits the text into the fields of either side. */
  lemma {:induction false} SplitAppend(a: string, sep: string, b: string)
    requires |sep| > 0 && AllSpace(sep)
    ensures Split(a + sep + b) == Split(a) + Split(b)
    decreases |a|
  {
    var t := sep + b;
    assert a + sep + b == a + t;
    if |a| == 0 {
      assert a + t == t;
      SplitSkipsSpace(sep, b);
    } else if IsSpace(a[0]) {
      SplitSpaceFirst(a, t);
      assert a[1..] + t == a[1..] + sep + b;
      SplitAppend(a[1..], sep, b);
    } else {
      var n := WordLength(a);
      SplitWordFirst(a, t);
      assert a[n..] + t == a[n..] + sep + b;
      SplitAppend(a[n..], sep, b);
    }
  }

  /** A leading space of `a` is skipped in `a + t` as in `a`. */
  lemma SplitSpaceFirst(a: string, t: string)
    requires |a| > 0 && IsSpace(a[0])
    ensures Split(a + t) == Split(a[1..] + t)
  {
    assert (a + t)[1..] == a[1..] + t;
  }

  /** The first field of `a` is the first field of `a + t` when whitespace ends it. */
  lemma SplitWordFirst(a: string, t: string)
    requires |a| > 0 && !IsSpace(a[0])
    requires |t| > 0 && IsSpace(t[0])
    ensures Split(a + t) == [a[..WordLength(a)]] + Split(a[WordLength(a)..] + t)
  {
    var s, n := a + t, WordLength(a);
    WordLengthAppend(a, t);
    assert s[0] == a[0] && WordLength(s) == n;
    assert Split(s) == [s[..n]] + Split(s[n..]);
    assert s[..n] == a[..n];
    DropAppend(a, t, n);
  }

  lemma DropAppend(a: string, t: string, n: nat)
    requires n <= |a|
    ensures (a + t)[n..] == a[n..] + t
  {
  }

  lemma SplitWord(w: string)
    requires IsWord(w)
    ensures Split(w) == [w]
  {
    assert WordLength(w) == |w|;
    assert w[..|w|] == w;
    assert w[|w|..] == [];
  }

  /** `split()` undoes `sep.join` for whitespace separators and whitespace-free fields. */
  lemma {:induction false} SplitJoin(sep: string, ts: seq<string>)
    requires |sep| > 0 && AllSpace(sep)
    requires AllWords(ts)
    ensures Split(Join(sep, ts)) == ts
  {
    if |ts| == 1 {
      SplitWord(ts[0]);
    } else if |ts| > 1 {
      SplitWord(ts[0]);
      SplitJoin(sep, ts[1..]);
      SplitAppend(ts[0], sep, Join(sep, ts[1..]));
      assert [ts[0]] + ts[1..] == ts;
    }
  }

  /** `split()` recovers the fields of a column-aligned line, whatever the padding. */
  lemma SplitCells(lead: string, cs: seq<Cell>)
    requires AllSpace(lead) && Aligned(cs)
    ensures Split(lead + Cells(cs)) == Fields(cs)
  {
    SplitSkipsSpace(lead, Cells(cs));
    SplitAlignedCells(cs);
  }

  lemma {:induction false} SplitAlignedCells(cs: seq<Cell>)
    requires Aligned(cs)
    ensures Split(Cells(cs)) == Fields(cs)
  {
    if |cs| > 0 {
      var c := cs[0];
      var rest := Cells(cs[1..]);
      assert Aligned(cs[1..]) by {
        forall i | 0 <= i < |cs| - 1
          ensures cs[1..][i] == cs[i + 1]
        {
        }
      }
      SplitAlignedCells(cs[1..]);
      SplitWord(c.field);
      if c.gap != [] {
        SplitAppend(c.field, c.gap, rest);
      } else {
        assert |cs| == 1;
        assert c.field + c.gap + rest == c.field;
      }
      assert Fields(cs) == [c.field] + Fields(cs[1..]);
    }
  }

  /** Padding free of line breaks keeps an aligned line a single line. */
  lemma {:induction false} CellsNoBreak(cs: seq<Cell>)
    requires Aligned(cs)
    requires forall i :: 0 <= i < |cs| ==> NoBreak(cs[i].gap)
    ensures NoBreak(Cells(cs))
  {
    if |cs| > 0 {
      assert Aligned(cs[1..]) by {
        forall i | 0 <= i < |cs| - 1
          ensures cs[1..][i] == cs[i + 1]
        {
        }
      }
      CellsNoBreak(cs[1..]);
      assert NoBreak(cs[0].field);
    }
  }

  // ------------------------------------------------------------ split(c) and join()

  lemma {:induction false} LengthBeforeAppend(a: string, c: char, t: string)
    requires c !in a
    ensures LengthBefore(a + [c] + t, c) == |a|
  {
    if |a| > 0 {
      assert (a + [c] + t)[1..] == a[1..] + [c] + t;
      LengthBeforeAppend(a[1..], c, t);
    }
  }

  /** `split(c)` undoes joining with `c` pieces that do not contain `c`. */
  lemma {:induction false} SplitOnJoin(c: char, ps: seq<string>)
    requires |ps| >= 1
    requires forall i :: 0 <= i < |ps| ==> c !in ps[i]
    ensures SplitOn(Join([c], ps), c) == ps
  {
    if |ps| == 1 {
      assert LengthBefore(ps[0], c) == |ps[0]|;
    } else {
      var s := Join([c], ps);
      var rest := Join([c], ps[1..]);
      LengthBeforeAppend(ps[0], c, rest);
      assert s[..|ps[0]|] == ps[0];
      assert s[|ps[0]| + 1..] == rest;
      SplitOnJoin(c, ps[1..]);
      assert [ps[0]] + ps[1..] == ps;
    }
  }

  // ------------------------------------------------------------ splitlines()

  lemma {:induction false} LineLengthAppend(a: string, t: string)
    requires NoBreak(a) && |t| > 0 && IsLineBreak(t[0])
    ensures LineLength(a + t) == |a|
  {
    if |a| > 0 {
      assert (a + t)[1..] == a[1..] + t;
      LineLengthAppend(a[1..], t);
    }
  }

  /** A line that ends in a terminator comes off first, and the rest is split on its own. */
  lemma SplitLinesCons(t: string, e: string, rest: string)
    requires NoBreak(t) && IsLineEnd(e)
    requires e == "\r" && |rest| > 0 ==> rest[0] != '\n'
    ensures SplitLines(t + e + rest) == [t] + SplitLines(rest)
  {
    var s := t + e + rest;
    var n := |t|;
    ConcatParts(t, e, rest);
    LineLengthAppend(t, e + rest);
    assert s[n] == e[0];
    var next := if s[n] == '\r' && n + 1 < |s| && s[n + 1] == '\n' then n + 2 else n + 1;
    if |e| == 2 {
      assert s[n + 1] == e[1];
    } else if n + 1 < |s| {
      assert s[n + 1] == rest[0];
    }
    assert next == n + |e|;
    assert SplitLines(s) == [s[..n]] + SplitLines(s[next..]);
  }

  /** The pieces of a three-part concatenation, recovered by slicing. */
  lemma ConcatParts(t: string, e: string, rest: string)
    ensures var s := t + e + rest;
            && s == t + (e + rest)
            && s[..|t|] == t && s[|t|..] == e + rest && s[|t| + |e|..] == rest
  {
    var s := t + e + rest;
    assert s[|t|..] == e + rest;
    assert s[|t| + |e|..] == rest;
  }

  /** `splitlines()` recovers the lines of text printed with any mix of line ends. */
  lemma {:induction false} SplitLinesPrint(ls: seq<PrintedLine>)
    requires WellPrinted(ls)
    ensures SplitLines(Print(ls)) == Texts(ls)
  {
    if |ls| > 0 {
      var rest := Print(ls[1..]);
      assert WellPrinted(ls[1..]) by {
        forall i | 0 <= i < |ls| - 1
          ensures ls[1..][i] == ls[i + 1]
        {
        }
      }
      if ls[0].end == "\r" && |rest| > 0 {
        assert |ls| > 1;
        if ls[1].text != [] {
          assert rest[0] == ls[1].text[0];
        } else {
          assert rest[0] == ls[1].end[0];
        }
      }
      SplitLinesCons(ls[0].text, ls[0].end, rest);
      SplitLinesPrint(ls[1..]);
      assert Texts(ls) == [ls[0].text] + Texts(ls[1..]);
    }
  }

  // ------------------------------------------------------------ strip()

  lemma {:induction false} LeadingSpacesAppend(pre: string, t: string)
    requires AllSpace(pre) && |t| > 0 && !IsSpace(t[0])
    ensures LeadingSpaces(pre + t) == |pre|
  {
    if |pre| > 0 {
      assert (pre + t)[1..] == pre[1..] + t;
      LeadingSpacesAppend(pre[1..], t);
    }
  }

  lemma {:induction false} TrailingSpacesAppend(t: string, post: string)
    requires AllSpace(post) && |t| > 0 && !IsSpace(t[|t| - 1])
    ensures TrailingSpaces(t + post) == |post|
  {
    if |post| > 0 {
      var s := t + post;
      assert s[..|s| - 1] == t + post[..|post| - 1];
      TrailingSpacesAppend(t, post[..|post| - 1]);
    }
  }

  /** `strip()` removes exactly the whitespace padding around a stripped string. */
  lemma StripPadded(pre: string, w: string, post: string)
    requires AllSpace(pre) && AllSpace(post) && IsStripped(w)
    ensures Strip(pre + w + post) == w
  {
    var s := pre + w + post;
    if w == [] {
      assert s == pre + post;
      AllSpaceConcat(pre, post);
    } else {
      assert s == pre + (w + post);
      LeadingSpacesAppend(pre, w + post);
      assert s == (pre + w) + post;
      TrailingSpacesAppend(pre + w, post);
      assert s[|pre|..|pre| + |w|] == w;
    }
  }

  /** `strip()` leaves an already stripped string alone; in particular it is idempotent. */
  lemma StripStripped(w: string)
    requires IsStripped(w)
    ensures Strip(w) == w
  {
    StripPadded("", w, "");
    assert "" + w + "" == w;
  }

  /** A whitespace-free word that occurs in a line still occurs in the stripped line. */
  lemma StripKeepsWord(s: string, w: string)
    requires IsWord(w) && Contains(s, w)
    ensures Contains(Strip(s), w)
  {
    var k :| OccursAt(s, w, k);
    StripShiftsWord(s, w, k);
  }

  /** An occurrence of a word at `k` in `s` sits at `k` minus the leading whitespace in `s.strip()`. */
  lemma StripShiftsWord(s: string, w: string, k: int)
    requires IsWord(w) && OccursAt(s, w, k)
    ensures OccursAt(Strip(s), w, k - LeadingSpaces(s))
  {
    StripTrims(s);
    TrimsShiftsWord(s, Strip(s), LeadingSpaces(s), w, k);
  }

  /** Cutting whitespace off both ends keeps a word's occurrence, shifted by the cut. */
  lemma TrimsShiftsWord(s: string, r: string, i: int, w: string, k: int)
    requires Trims(s, r, i) && IsWord(w) && OccursAt(s, w, k)
    ensures OccursAt(r, w, k - i)
  {
    forall y | 0 <= y < |w|
      ensures s[k + y] == w[y]
    {
      assert s[k..k + |w|][y] == s[k + y];
    }
    assert !IsSpace(s[k]) && !IsSpace(s[k + |w| - 1]);
    assert i <= k && k + |w| <= i + |r|;
    assert r[k - i..k - i + |w|] == w;
  }

  /** Whatever surrounds it, a string contains each of its parts. */
  lemma ContainsInfix(a: string, w: string, b: string)
    ensures Contains(a + w + b, w)
  {
    assert (a + w + b)[|a|..|a| + |w|] == w;
    assert OccursAt(a + w + b, w, |a|);
  }
}

=== FILE: seqs.dfy ===
/** Generic list combinators: the shapes of the source's `for` loops that append to a list. */
module Seqs {
  import opened Wrappers

  /** The list a loop builds when it appends `v` for every element `x` with `f(x) == Some(v)`,
      in the order the elements come. */
  function FilterMap<A, B>(xs: seq<A>, f: A -> Option<B>): (r: seq<B>)
    ensures |r| <= |xs|
  {
    if |xs| == 0 then []
    else
      var rest := FilterMap(xs[1..], f);
      match f(xs[0])
      case Some(y) => [y] + rest
      case None => rest
  }

  /** `[g(x) for x in xs]`. */
  function Map<A, B>(xs: seq<A>, g: A -> B): (r: seq<B>)
    ensures |r| == |xs|
    ensures forall i :: 0 <= i < |xs| ==> r[i] == g(xs[i])
  {
    if |xs| == 0 then [] else [g(xs[0])] + Map(xs[1..], g)
  }

  /** How many elements of `xs` satisfy `p`. */
  function Count<A>(xs: seq<A>, p: A -> bool): (n: nat)
    ensures n <= |xs|
    ensures n == 0 <==> forall i :: 0 <= i < |xs| ==> !p(xs[i])
  {
    if |xs| == 0 then 0
    else
      assert forall i :: 1 <= i < |xs| ==> xs[i] == xs[1..][i - 1];
      (if p(xs[0]) then 1 else 0) + Count(xs[1..], p)
  }

  /** Python's `sum(xs)`. */
  function Sum(xs: seq<int>): int {
    if |xs| == 0 then 0 else xs[0] + Sum(xs[1..])
  }

  /** Python's `xs[1:]`: everything after the first element, and nothing for an empty list. */
  function AfterFirst<A>(xs: seq<A>): (r: seq<A>)
    ensures |xs| > 0 ==> [xs[0]] + r == xs
    ensures |xs| == 0 ==> r == []
  {
    if |xs| == 0 then [] else xs[1..]
  }

  /** Concatenation after a leading element regroups. */
  lemma ConsAppend<A>(x: A, a: seq<A>, b: seq<A>)
    ensures [x] + a + b == [x] + (a + b)
  {
  }

  lemma AfterFirstCons<A>(x: A, t: seq<A>)
    ensures AfterFirst([x] + t) == t
  {
    assert ([x] + t)[1..] == t;
  }

  /** Every entry the loop appends comes from some element of the input. */
  lemma {:induction false} FilterMapOrigin<A, B>(xs: seq<A>, f: A -> Option<B>, i: nat)
    requires i < |FilterMap(xs, f)|
    ensures exists j :: 0 <= j < |xs| && f(xs[j]) == Some(FilterMap(xs, f)[i])
  {
    var rest := FilterMap(xs[1..], f);
    if f(xs[0]).Some? && i == 0 {
      assert f(xs[0]) == Some(FilterMap(xs, f)[0]);
    } else {
      var k := if f(xs[0]).Some? then i - 1 else i;
      assert FilterMap(xs, f)[i] == rest[k];
      FilterMapOrigin(xs[1..], f, k);
      var j :| 0 <= j < |xs[1..]| && f(xs[1..][j]) == Some(rest[k]);
      assert xs[1..][j] == xs[j + 1];
    }
  }

  /** Every element the loop accepts is appended. */
  lemma {:induction false} FilterMapKeeps<A, B>(xs: seq<A>, f: A -> Option<B>, j: nat)
    requires j < |xs| && f(xs[j]).Some?
    ensures f(xs[j]).value in FilterMap(xs, f)
  {
    if j > 0 {
      assert xs[1..][j - 1] == xs[j];
      FilterMapKeeps(xs[1..], f, j - 1);
    }
  }

  /** The loop distributes over concatenation: entries of a longer input come in input order. */
  lemma {:induction false} FilterMapAppend<A, B>(xs: seq<A>, ys: seq<A>, f: A -> Option<B>)
    ensures FilterMap(xs + ys, f) == FilterMap(xs, f) + FilterMap(ys, f)
  {
    if |xs| == 0 {
      assert xs + ys == ys;
    } else {
      assert (xs + ys)[1..] == xs[1..] + ys;
      FilterMapAppend(xs[1..], ys, f);
    }
  }

  /** Exactly one entry per element the filter accepts. */
  lemma {:induction false} FilterMapLength<A, B>(xs: seq<A>, f: A -> Option<B>, p: A -> bool)
    requires forall i :: 0 <= i < |xs| ==> (p(xs[i]) <==> f(xs[i]).Some?)
    ensures |FilterMap(xs, f)| == Count(xs, p)
  {
    if |xs| > 0 {
      assert forall i :: 0 <= i < |xs[1..]| ==> xs[1..][i] == xs[i + 1];
      FilterMapLength(xs[1..], f, p);
    }
  }

  /** Two loops over inputs of the same length whose elements are accepted and mapped alike,
      position by position, build the same list. */
  lemma {:induction false} FilterMapPointwise<A, C, B>(xs: seq<A>, f: A -> Option<B>, ys: seq<C>, h: C -> Option<B>)
    requires |xs| == |ys|
    requires forall i :: 0 <= i < |xs| ==> f(xs[i]) == h(ys[i])
    ensures FilterMap(xs, f) == FilterMap(ys, h)
  {
    if |xs| > 0 {
      assert f(xs[0]) == h(ys[0]);
      assert forall i :: 0 <= i < |xs[1..]| ==> xs[1..][i] == xs[i + 1] && ys[1..][i] == ys[i + 1];
      FilterMapPointwise(xs[1..], f, ys[1..], h);
    }
  }

  /** A loop that accepts every element returns the mapped elements, one per input. */
  lemma {:induction false} FilterMapAll<A, B>(xs: seq<A>, f: A -> Option<B>, ys: seq<B>)
    requires |xs| == |ys|
    requires forall i :: 0 <= i < |xs| ==> f(xs[i]) == Some(ys[i])
    ensures FilterMap(xs, f) == ys
  {
    if |xs| > 0 {
      var tail, rest := xs[1..], ys[1..];
      forall i | 0 <= i < |tail|
        ensures f(tail[i]) == Some(rest[i])
      {
        assert tail[i] == xs[i + 1] && rest[i] == ys[i + 1];
      }
      FilterMapAll(tail, f, rest);
      assert FilterMap(xs, f) == [ys[0]] + rest;
    }
  }

  /** A loop that keeps nothing returns the empty list. */
  lemma {:induction false} FilterMapDropsAll<A, B>(xs: seq<A>, f: A -> Option<B>)
    requires forall i :: 0 <= i < |xs| ==> f(xs[i]).None?
    ensures FilterMap(xs, f) == []
  {
    if |xs| > 0 {
      assert forall i :: 0 <= i < |xs[1..]| ==> xs[1..][i] == xs[i + 1];
      FilterMapDropsAll(xs[1..], f);
    }
  }

  /** A sum of non-negative numbers is non-negative. */
  lemma {:induction false} SumNonNegative(xs: seq<int>)
    requires forall i :: 0 <= i < |xs| ==> xs[i] >= 0
    ensures Sum(xs) >= 0
  {
    if |xs| > 0 {
      assert forall i :: 0 <= i < |xs[1..]| ==> xs[1..][i] == xs[i + 1];
      SumNonNegative(xs[1..]);
    }
  }

  lemma {:induction false} SumAppend(xs: seq<int>, ys: seq<int>)
    ensures Sum(xs + ys) == Sum(xs) + Sum(ys)
  {
    if |xs| == 0 {
      assert xs + ys == ys;
    } else {
      assert (xs + ys)[1..] == xs[1..] + ys;
      SumAppend(xs[1..], ys);
    }
  }
}

=== FILE: wrappers.dfy ===
/** Small failure-carrying datatypes shared by the rest of the model. */
module Wrappers {

  /** Python's `None` or a value. */
  datatype Option<+T> = None | Some(value: T) {

    /** The value, or `default` when there is none (Python's `dict.get(key, default)`). */
    function GetOr(default: T): T {
      match this
      case Some(v) => v
      case None => default
    }
  }

  /** The outcome of a call into the operating system or a library the model cannot see:
      either the value it returned or the text of the exception it raised. */
  datatype Call<+T> = Returned(value: T) | Raised(message: string)
}
